=== FILE: README.md ===
# Texture resources on Vulkan and panel child management

A Dafny model of two parts of the Xenko engine.

**Textures.** The Vulkan texture back end (`Texture.Vulkan.cs`) is modelled as pure functions over a `Texture` record. The record holds:

- the texture's description;
- the mip descriptions and view bounds the engine derives from that description;
- an optional parent;
- a `NativeState` holding every native field.

The modelled behaviour is:

- **`InitializeFromImpl`** resolves the native format, stencil flag and aspect, with the depth-stencil format fallback. It then takes the staging path (a host-visible buffer) or the image path. The image path sets the steady layout, access mask and pipeline stages, then picks one of three cases: the parent's image for a view, a new image with its recorded upload for an owning texture, or nothing for a wrapper of external handles. Finally it creates the three views.
- **`CreateBuffer`** computes the staging buffer size.
- **`InitializeImage`** lays out the upload buffer (alignment mask, padded total, one copy per data box) and records the barriers around the copy.
- **View factory.** `GetImageView`, `GetColorAttachmentView` and `GetDepthStencilView`, with their exceptions.
- **Lifecycle.** `OnDestroyed` passes handles to the deferred collector. `OnRecreateImpl` applies the recreation policy. `SwapInternal` exchanges native state.
- **Mip counts.** `CalculateMipCountFromSize`, `CalculateMipCount` and `CheckMipLevels`.

Native calls are replaced by a `Device` record:

- Handles are numbered from `nextHandle`: the image or buffer first, then memory, then the three views.
- `memoryAvailable` says whether memory allocation succeeds.
- The upload allocator returns `uploadOffset`.
- Format support and the pixel-format tables are function-valued fields.

**Panels.** `Panel.cs` is modelled as methods over an element tree `UI`. The tree holds:

- which elements are panels;
- each panel's logical `Children` list and Z-sorted `VisualChildrenCollection`;
- the length of its arrange-matrix array;
- the `Parent` and `VisualParent` maps;
- the attached `ZIndex` values;
- the set of elements under the mouse.

The modelled operations are `AddChild`, `RemoveChild`, the collection-changed callbacks `OnLogicalChildAdded` and `OnLogicalChildRemoved`, the Z-order comparer and sort, the `ZIndex` invalidation callback, and the anchoring flags.

`Valid` is the consistency the operations keep:

- parents and children lists agree;
- no child appears twice;
- the visual list is the children list in increasing Z-index order;
- the arrange array has a slot per child.

## Model

Source paths are relative to the repository root.

| member | source | states |
|---|---|---|
| Textures.InitializeFromImpl | sources/engine/Xenko.Graphics/Vulkan/Texture.Vulkan.cs:99-192 | A texture with an image already throws InvalidOperation. A non-owning staging texture throws. A staging texture without a parent throws when given data. A staging view shares its parent's buffer and memory. The native format is always the one ResolveFormat picks, including the depth-stencil fallback. A non-staging texture ends in the steady layout, access mask and stages of its roles. An owning non-staging texture records an upload that ends in that layout; with data, its copies are PlanUpload's layout for the resolved format's block size. Its three views are exactly what the view factory returns for the resolved format and aspect. Staging and non-owning textures get no views. The stencil flag and aspect follow the view format. |
| Textures.ResolveFormat | sources/engine/Xenko.Graphics/Vulkan/Texture.Vulkan.cs:101-112 | The stencil flag is IsStencilFormat(ViewFormat). The aspect is Depth or Color plus Stencil. Only a depth-stencil texture with a stencil format goes through the fallback. No other native field changes. |
| Textures.InitializeStaging | sources/engine/Xenko.Graphics/Vulkan/Texture.Vulkan.cs:114-138 | It fails exactly when an image is set, when the texture does not own its resources, or when a texture without a parent gets data. Access is host read and write, and the stage is Host. A view reuses the parent's buffer and memory, otherwise a new buffer is created. Every other native field is left as it was, the format included. No views are created and no upload is recorded. |
| Textures.UploadAlignedToBlockSize | sources/engine/Xenko.Graphics/Vulkan/Texture.Vulkan.cs:320-322 | The block size is the compressed block for a compressed format and the pixel size otherwise. Every copy starts at a multiple of that block size when it is at least 4, and at a multiple of 4 for smaller blocks. |
| Textures.MipBytes | sources/engine/Xenko.Graphics/Vulkan/Texture.Vulkan.cs:202-206 | One mip level's contribution is below 2^32. It equals DepthStride*Depth*ArraySize when that product fits in 32 bits. |
| Textures.CreateBufferSize | sources/engine/Xenko.Graphics/Vulkan/Texture.Vulkan.cs:194-207 | The loop accumulates exactly BufferSize, the sum of the per-mip contributions. Each contribution is below 2^32. |
| Textures.BufferSizeWithoutWrap | sources/engine/Xenko.Graphics/Vulkan/Texture.Vulkan.cs:200-206 | Without wrap-around, the buffer size is ArraySize times the sum of DepthStride*Depth over all mips. |
| Textures.InitializeImage | sources/engine/Xenko.Graphics/Vulkan/Texture.Vulkan.cs:289-401 | Both pipeline barriers are recorded with their stages. With data, the first barrier runs Host→Transfer. It makes [uploadOffset, uploadOffset + totalSize) of the upload buffer readable by the transfer (HostWrite→TransferRead) and moves the image from Undefined to TransferDstOptimal. The copies are exactly PlanUpload's layout for the texture's block size. The release barrier runs Transfer→AllCommands, from TransferDstOptimal/TransferWrite into the steady layout and access, and the texture becomes initialized. Without data, there is no transfer, the release barrier starts from Undefined with no access, and the initialized flag is kept. |
| Textures.UploadCopiesInsideBarrier | sources/engine/Xenko.Graphics/Vulkan/Texture.Vulkan.cs:324-367 | With data, there is one copy per data box, each addressing its array slice and mip. The upload barrier covers |data| × mask + Σ pitches bytes. Every copy lies inside that region, and no two copies overlap. |
| Textures.InitializeImageResource | sources/engine/Xenko.Graphics/Vulkan/Texture.Vulkan.cs:139-191 | A set image throws. The steady layout, access and stages are set. A view takes the parent's image and memory. A non-owning wrapper keeps its handles and creates no views. An owning texture gets a new image, memory and upload, with PlanUpload's copies when data is given. Format, stencil flag, aspect, buffer and ownership are unchanged. The views of an owning texture are the view factory's results for its format. A view handle is null exactly when its role is absent. It fails exactly when a requested colour or image view shape is rejected. |
| Textures.BackImage | sources/engine/Xenko.Graphics/Vulkan/Texture.Vulkan.cs:142-179 | The steady state is set. It then takes the parent's image and memory, or a new image and memory with its upload (a transfer iff data is given, laid out by PlanUpload), or, for a non-owning texture, the handles as they were. Every other native field is untouched. |
| Textures.AttachViews | sources/engine/Xenko.Graphics/Vulkan/Texture.Vulkan.cs:181-190 | The colour, depth-stencil and image views are exactly what ColorAttachmentView, DepthStencilView and ImageView return for the texture's format, aspect and view bounds. Their handles follow the image and memory, and are null for an absent view. Each view is created exactly for its role: render target, depth-stencil or shader resource. It fails exactly when the colour view or the image view rejects the description. The rest of the native state is kept. |
| Textures.ReleaseOwned | sources/engine/Xenko.Graphics/Vulkan/Texture.Vulkan.cs:411-447 | Every set handle is collected once, with its kind, in source order: memory, image, buffer, image view, colour view, depth-stencil view. Null is never collected. All six are nulled and nothing else changes. |
| Textures.OnDestroyedAsWritten | sources/engine/Xenko.Graphics/Vulkan/Texture.Vulkan.cs:404-450 | Image and memory always end null. A non-owning texture collects nothing and changes nothing else. An owning texture ends with all six handles null and collects each set handle once, in source order. For a view, that is every handle but the parent's image and memory, so it includes a buffer the view holds. Null is never collected. |
| Textures.OnDestroyedAsWrittenAgrees | sources/engine/Xenko.Graphics/Vulkan/Texture.Vulkan.cs:404-450 | The C# destruction equals the corrected one exactly when the texture has no parent or holds no buffer. |
| Textures.OnDestroyed | sources/engine/Xenko.Graphics/Vulkan/Texture.Vulkan.cs:404-450 | A non-owning texture collects nothing and forgets its image and memory. An owning texture ends with all six handles null. A view collects only its own views. A texture without a parent collects exactly its set handles. Null is never collected. |
| Textures.StagingViewBufferCollectedTwice | sources/engine/Xenko.Graphics/Vulkan/Texture.Vulkan.cs:127-132 | A staging view created from a freshly initialized staging texture holds the parent's buffer. As written, destroying the view and the parent both collect that buffer. The corrected OnDestroyed does not collect it for the view. |
| Textures.OnRecreateImpl | sources/engine/Xenko.Graphics/Vulkan/Texture.Vulkan.cs:455-473 | A view with an inactive parent is left alone. Immutable or default textures that are neither render target nor depth-stencil are left alone. Every other texture is initialized again without data. It fails exactly when InitializeFromImpl does, for instance with InvalidOperation when its image is still set. Otherwise it takes the native state InitializeFromImpl produces, keeping its description and parent. |
| Textures.RecreateAfterDestroy | sources/engine/Xenko.Graphics/Vulkan/Texture.Vulkan.cs:404-473 | Destroying an owning texture the guards let through and recreating it succeeds for staging textures. For the others it fails exactly when a requested view shape is rejected. A texture without a parent gets the device's next handle as its image, or as its buffer when staging. A view takes its parent's image again, or its parent's buffer when staging. |
| Textures.SwapInternal | sources/engine/Xenko.Graphics/Vulkan/Texture.Vulkan.cs:49-67 | The two textures exchange all native fields and keep their descriptions, mips, view bounds and parents. |
| Textures.SwapTwiceIsIdentity | sources/engine/Xenko.Graphics/Vulkan/Texture.Vulkan.cs:49-67 | Swapping twice restores both textures. |
| UploadLayout.AlignmentMask | sources/engine/Xenko.Graphics/Vulkan/Texture.Vulkan.cs:320-322 | The mask plus one is at least 4 and at least the block size. It is 4 for blocks up to 4 bytes and the block size from 4 up. |
| UploadLayout.CompressedBlockMask | sources/engine/Xenko.Graphics/Vulkan/Texture.Vulkan.cs:320-322 | Block sizes 16, 8 and 1 give masks 15, 7 and 3. |
| UploadLayout.PaddedSumIsTotal | sources/engine/Xenko.Graphics/Vulkan/Texture.Vulkan.cs:324-328 | The reserved size is count×mask plus the sum of the slice pitches. |
| UploadLayout.AlignAsWritten | sources/engine/Xenko.Graphics/Vulkan/Texture.Vulkan.cs:349 | `(offset + mask) & ~mask` lies between offset and offset + mask. |
| UploadLayout.AlignUp | sources/engine/Xenko.Graphics/Vulkan/Texture.Vulkan.cs:349-351 | The corrected rounding gives the next multiple of the alignment, less than one alignment past the offset. |
| UploadLayout.AlignAsWrittenAgreesForPowerOfTwo | sources/engine/Xenko.Graphics/Vulkan/Texture.Vulkan.cs:319-322 | When mask + 1 is a power of two, the C# rounding equals AlignUp. |
| UploadLayout.AlignAsWrittenMisalignsTwelveBytePixels | sources/engine/Xenko.Graphics/Vulkan/Texture.Vulkan.cs:318-351 | With 12-byte pixels, the C# rounding places offset 12 at 20, which is not a multiple of 12. AlignUp keeps it at 12. |
| UploadLayout.PlanCopiesAsWritten | sources/engine/Xenko.Graphics/Vulkan/Texture.Vulkan.cs:341-367 | The copies as the C# loop places them with `& ~mask`. Copy k has the k-th slice pitch, array slice (first+k)/MipLevels, mip (first+k)%MipLevels, and that mip's extent. The copies lie in order, without overlap, inside the range padded by mask bytes per box, whatever the mask. |
| UploadLayout.PlanCopiesAgreeForPowerOfTwo | sources/engine/Xenko.Graphics/Vulkan/Texture.Vulkan.cs:341-367 | When mask + 1 is a power of two, the C# placement equals the corrected placement with alignment mask + 1. |
| UploadLayout.PlanCopies | sources/engine/Xenko.Graphics/Vulkan/Texture.Vulkan.cs:341-367 | The corrected placement. Copy k has the k-th slice pitch, array slice (first+k)/MipLevels, mip (first+k)%MipLevels, and that mip's extent. It starts at an aligned offset. The copies lie in order, without overlap, inside the padded range. |
| UploadLayout.PlanUploadAsWritten | sources/engine/Xenko.Graphics/Vulkan/Texture.Vulkan.cs:318-367 | The layout the C# code computes. The total size is count×mask plus the pitches. Copy i addresses array slice i/MipLevels and mip i%MipLevels. Every copy lies inside [start, start+total) and ends before the next begins. No alignment is claimed. |
| UploadLayout.PlanUploadAgreesForPowerOfTwo | sources/engine/Xenko.Graphics/Vulkan/Texture.Vulkan.cs:318-367 | When max(blockSize, 4) is a power of two, the C# layout is the corrected layout. |
| UploadLayout.PlanUploadMisalignsTwelveBytePixels | sources/engine/Xenko.Graphics/Vulkan/Texture.Vulkan.cs:318-367 | Two 12-byte boxes at upload offset 0: the C# layout puts the second copy at 20, the corrected one at 12. |
| UploadLayout.PlanUpload | sources/engine/Xenko.Graphics/Vulkan/Texture.Vulkan.cs:318-367 | The corrected layout. The total size is count×mask plus the pitches. Copy i addresses array slice i/MipLevels and mip i%MipLevels. Every copy is aligned to mask+1, lies inside [start, start+total), and ends before the next begins. |
| UploadLayout.PlanOffsetsIncrease | sources/engine/Xenko.Graphics/Vulkan/Texture.Vulkan.cs:341-361 | A non-empty slice's copy starts strictly before every later copy. |
| Views.ImageView | sources/engine/Xenko.Graphics/Vulkan/Texture.Vulkan.cs:475-548 | No shader-resource role gives the null view. MipBand throws NotSupported and multisample throws NotImplemented. The rejected shapes fail exactly: a 3D array, or a cube whose array size is not a multiple of 6 above 1. Otherwise the view has the native format, a Depth or Color aspect, the slice bounds, one layer for 3D, and the view type of its dimension and array size. |
| Views.ColorAttachmentView | sources/engine/Xenko.Graphics/Vulkan/Texture.Vulkan.cs:550-594 | No render-target role gives the null view. It fails exactly on MipBand, multisample, a 3D array or a single cube. Otherwise it is a one-layer 2D colour view at the slice bounds. |
| Views.DepthStencilView | sources/engine/Xenko.Graphics/Vulkan/Texture.Vulkan.cs:596-629 | A view is created iff the texture is depth-stencil. It is 2D, with the first mip and layer and the texture's full aspect. |
| Views.CubeViewBoundary | sources/engine/Xenko.Graphics/Vulkan/Texture.Vulkan.cs:517-530 | A 6-face cube gets a cube view, 12 faces a cube array, and 1 or 8 faces are rejected. |
| VulkanFlags.SteadyLayout | sources/engine/Xenko.Graphics/Vulkan/Texture.Vulkan.cs:155-159 | Render target beats depth-stencil, which beats shader resource. The layout is TransferDstOptimal iff none of the three roles is present, and never Undefined. |
| VulkanFlags.SteadyAccess | sources/engine/Xenko.Graphics/Vulkan/Texture.Vulkan.cs:161-171 | The access mask is the one for the steady layout. Each access bit is present iff its role wins. Transfer-write and host bits are never set. |
| VulkanFlags.SteadyStages | sources/engine/Xenko.Graphics/Vulkan/Texture.Vulkan.cs:173-177 | Each stage bit is present iff its role wins. The set is empty iff the texture has no role. |
| VulkanFlags.ImageAspect | sources/engine/Xenko.Graphics/Vulkan/Texture.Vulkan.cs:104-106 | Depth iff depth-stencil, Color otherwise, and Stencil iff the view format is one of the four stencil formats of IsStencilFormat. |
| Formats.StencilFormatsAreCombined | sources/engine/Xenko.Graphics/Vulkan/Texture.Vulkan.cs:718-730 | IsStencilFormat holds exactly for R24G8_Typeless, D24_UNorm_S8_UInt, R32G8X24_Typeless and D32_Float_S8X24_UInt, and not for the depth-only or other formats. |
| Formats.FirstSupported | sources/engine/Xenko.Graphics/Vulkan/Texture.Vulkan.cs:703-713 | The result is the default or a supported candidate, and the default when no candidate is supported. |
| Formats.FirstSupportedIsFirst | sources/engine/Xenko.Graphics/Vulkan/Texture.Vulkan.cs:703-713 | The probe loop stops at the supported candidate of lowest index. |
| Formats.GetFallbackDepthStencilFormat | sources/engine/Xenko.Graphics/Vulkan/Texture.Vulkan.cs:697-716 | A format that is not packed depth-stencil is returned unchanged. A supported packed format is kept. An unsupported one becomes the first supported of D32S8, D24S8, D16S8, or stays as it was. The result is packed depth-stencil iff the input is. |
| MipLevels.CalculateMipCountFromSize | sources/engine/Xenko.Graphics/Vulkan/Texture.Vulkan.cs:663-685 | It throws ArgumentOutOfRange iff size or minimum is not positive. Otherwise the count is at least 1, size/2^count is below the minimum, and size/2^(count-1) is not (for count > 1). |
| MipLevels.CalculateMipCount | sources/engine/Xenko.Graphics/Vulkan/Texture.Vulkan.cs:692-695 | It throws iff a size or the minimum is not positive. Otherwise the result is the smaller of the width and height counts. |
| MipLevels.CheckMipLevels | sources/engine/Xenko.Graphics/Vulkan/Texture.Vulkan.cs:647-654 | Only compressed, non-depth-stencil formats below level 10.0 are changed. Their MipLevels becomes min(4-pixel mip count, MipLevels). Nothing else in the description changes. |
| ZOrder.CompareAsWritten | sources/engine/Xenko.UI/Panels/Panel.cs:52-64 | The same reference gives 0, and a null x gives 1 while a null y gives -1. Two elements give their Z-index difference modulo 2^32. |
| ZOrder.Compare | sources/engine/Xenko.UI/Panels/Panel.cs:52-64 | The intended comparer treats equality and null as the C# code does. For elements, the sign is that of the Z-index difference. |
| ZOrder.CompareIsConsistent | sources/engine/Xenko.UI/Panels/Panel.cs:48-64 | The intended comparer is antisymmetric and transitive. |
| ZOrder.CompareAsWrittenAgreesWithoutOverflow | sources/engine/Xenko.UI/Panels/Panel.cs:63 | When the difference fits in 32 bits, the C# comparer has the intended sign. |
| ZOrder.CompareAsWrittenOverflows | sources/engine/Xenko.UI/Panels/Panel.cs:63 | For Z-indices 2147483647 and -1 the C# comparer returns a negative value, although the first element has the larger Z-index. |
| ZOrder.SortedByZIsSortedByComparer | sources/engine/Xenko.UI/Panels/Panel.cs:47-50 | Increasing Z-index order is exactly order under the intended comparer. |
| ZOrder.SortByZSorts | sources/engine/Xenko.UI/Panels/Panel.cs:208 | The sort returns the same multiset of children, sorted by Z-index. |
| Anchoring.DefaultAnchoring | sources/engine/Xenko.UI/Panels/Panel.cs:104-108 | A new panel anchors in every direction. |
| Anchoring.ActivateAnchoring | sources/engine/Xenko.UI/Panels/Panel.cs:240-248 | ShouldAnchor(d) afterwards is `enable`, and every other direction keeps its flag. |
| Panels.NewPanel | sources/engine/Xenko.UI/Panels/Panel.cs:104-112 | A new panel has empty child lists and an arrange array of 2. It joins the panel set. Every other panel keeps its lists and arrange array. The parent maps, the Z-indices and the hover set are unchanged. |
| Panels.NewPanelKeepsValid | sources/engine/Xenko.UI/Panels/Panel.cs:104-112 | Adding a fresh panel that no element refers to keeps the tree consistent. |
| Panels.GrowArrange | sources/engine/Xenko.UI/Panels/Panel.cs:209-210 | The arrange array covers the child count and never shrinks. When it changes, it becomes twice the child count. It is unchanged when already long enough. |
| Panels.DetachVisual | sources/engine/Xenko.UI/Panels/Panel.cs:191 | The child loses its visual parent. Only that parent's visual list, when it is a panel, loses the child. |
| Panels.AttachVisual | sources/engine/Xenko.UI/Panels/Panel.cs:207 | The child leaves its former visual list and is appended to the panel's. Its visual parent becomes the panel. |
| Panels.SortChildren | sources/engine/Xenko.UI/Panels/Panel.cs:208 | The result is the same children, in increasing Z-index order. |
| Panels.OnLogicalChildAdded | sources/engine/Xenko.UI/Panels/Panel.cs:202-211 | A null child throws InvalidOperation. Otherwise parent and visual parent become the panel. The panel's visual list is its former contents plus the child, sorted by Z. Other visual lists lose only the child. The arrange array grows per GrowArrange and no other panel's array changes. |
| Panels.OnLogicalChildRemoved | sources/engine/Xenko.UI/Panels/Panel.cs:186-195 | A child without a parent throws UIInternalException. Otherwise it loses parent and visual parent and leaves its visual list. The panel leaves the mouse-over set iff the child was in it. |
| Panels.ChildrenAdd | sources/engine/Xenko.UI/Panels/Panel.cs:163-179 | Children.Add appends the child and runs the add callback. |
| Panels.ChildrenRemove | sources/engine/Xenko.UI/Panels/Panel.cs:163-179 | Children.Remove on an absent child changes nothing. On a listed child it removes the first occurrence and runs the remove callback, which throws iff the child has no parent. |
| Panels.AddChild | sources/engine/Xenko.UI/Panels/Panel.cs:118-137 | A null child gives false and changes nothing. A child of this panel gives true and changes nothing. A child of another panel is removed there and appended here. Only the two children lists, the child's parent and visual parent, this panel's visual list and arrange array, and the old panel's visual list and hover state change. The old panel leaves the hover set iff the child was listed and hovered. A child of a non-panel throws. Otherwise the child ends with this parent and visual parent, the visual list is sorted, the hover set is unchanged for an orphan, and consistency is kept. |
| Panels.RemoveChild | sources/engine/Xenko.UI/Panels/Panel.cs:144-156 | The result is true iff the child is non-null and this panel is its parent; otherwise nothing changes. A removal changes only this panel's list, the child's parents and its visual list, and this panel leaves the hover set iff the child was hovered. Consistency is kept, and the removed child has no parent and no visual parent. |
| Panels.ListedIffChild | sources/engine/Xenko.UI/Panels/Panel.cs:144-156 | In a consistent tree, a panel's parent relation and its children list agree. |
| Panels.AddedKeepsValid | sources/engine/Xenko.UI/Panels/Panel.cs:202-211 | Adding a child that has no panel parent keeps the tree consistent. |
| Panels.RemovedKeepsValid | sources/engine/Xenko.UI/Panels/Panel.cs:186-195 | Removing a listed child keeps the tree consistent. |
| Panels.AddThenRemoveRestores | sources/engine/Xenko.UI/Panels/Panel.cs:118-156 | Adding an orphan and removing it again restores parents, children lists and visual list contents. |
| Panels.SetZIndex | sources/engine/Xenko.UI/Panels/Panel.cs:93-99 | Changing an element's ZIndex re-sorts its visual parent's list, as a permutation. Other lists are untouched and consistency is kept. |
| Panels.ZChangeKeepsValid | sources/engine/Xenko.UI/Panels/Panel.cs:93-99 | A Z change with the visual parent re-sorted keeps every other list sorted, because no other panel lists the element. |

## Left out

- GPU and OS work is out of scope: `vkCreate*`, `vkAllocate*`, command buffer recording and submission, fences, the queue lock, `CopyMemory` of the data boxes and `RegisterTextureMemoryUsage`. Native handles are numbers from the `Device` record.
- `CreateImage` is not modelled beyond the handles it yields, and neither is the format conversion of `VulkanConvertExtensions`. Format support and the pixel-format size tables are device parameters.
- `GetMipMapDescription` and `GetViewSliceBounds` (`Texture.cs`) are not part of this model. Their results are inputs stored on the texture: `mips` and `viewBounds`.
- Textures.InitializeFromImpl: 32-bit overflow of `totalSize` and of the upload offsets is not modelled; sizes are unbounded naturals.
- UploadLayout.PlanUpload: it places the copies with the corrected rounding `AlignUp`, not the `& ~mask` of line 349. UploadLayout.PlanUploadAsWritten is the C# layout, and UploadLayout.PlanUploadAgreesForPowerOfTwo shows that the two agree whenever max(blockSize, 4) is a power of two.
- Textures.InitializeImage: the recorded upload uses the corrected layout UploadLayout.PlanUpload, so for 12-byte pixels its copy offsets differ from the C# code. The barriers with their stage masks, the sizes, the subresource addresses and the total size are those of the code. The subresource range of the image barriers (all mips and layers) and the zero row length and image height of each copy are not recorded.
- UploadLayout.AlignUp: the corrected rounding goes to a multiple of max(blockSize, 4). That is a multiple of both 4 and the pixel size only when one divides the other, so 3- and 6-byte pixel formats would still need a least-common-multiple alignment. This is not modelled.
- UploadLayout.PlanCopies: `bufferRowLength`, `bufferImageHeight`, the image offset and the Color aspect of every copy are constants in the source and are not recorded.
- Textures.OnRecreateImpl: the `GraphicsDevice != null` guard on memory accounting is dropped along with the accounting itself.
- The `UIElement.SetParent` and `SetVisualParent` bodies are not part of this model. They are modelled as updating the parent maps and moving the child between visual lists.
- ZOrder.SortByZSorts: `List.Sort` is unstable, and the model sorts with a stable insertion sort. Only the multiset and the Z order are claimed. Both sorts guarantee these when no Z-index difference wraps.
- Panels.SortChildren: it sorts with the corrected comparer ZOrder.Compare. Under the C# comparer, a wrapping Z difference makes the order inconsistent, and what `List.Sort` then returns is unspecified.
- Textures.InitializeStaging: the size `CreateBuffer` requests is not carried into the staging state. The created buffer is only a handle, and the size is modelled separately by Textures.CreateBufferSize.
- Panels.ChildrenRemove: an Err result does not carry the tree as it is when the callback throws. By then the child has already left `Children`.
- Textures.InitializeStaging: an Err result does not carry the buffer and memory that `CreateBuffer` has already set when data is rejected.
- Textures.AttachViews and Textures.InitializeImageResource: an Err result does not carry the image, memory and upload already created when a view shape is rejected.
- Panels.ChildrenRemove: the model assumes `UIElementCollection` raises exactly one Remove notification per removal, as the tracking collection does. The collection's own rejection of null items is not modelled.
- Panels.OnLogicalChildRemoved: resetting the panel's mouse-over state is modelled as leaving the set of hovered elements. The three mouse-over states are not distinguished.
- `InvalidateMeasure`, `InvalidateArrangeMatrix`, `UpdateWorldMatrix`, `GetSurroudingAnchorDistances` and the layout maths are left out: they compute matrices and floats, not the child structure.
- `childrenArrangeWorldMatrix` is modelled by its length only.
- VulkanFlags.SteadyAccess: a texture with no role gets the TransferDstOptimal layout with TransferRead access and, by VulkanFlags.SteadyStages, no pipeline stage.
- Formats.GetFallbackDepthStencilFormat: when no candidate is supported, the requested format is returned rather than an error.

## Findings

| source | as written | input that shows it | evidently intended | confidence | as-written member | corrected member |
|---|---|---|---|---|---|---|
| sources/engine/Xenko.Graphics/Vulkan/Texture.Vulkan.cs:349 | `(offset + mask) & ~mask` rounds up only when mask+1 is a power of two; the comment at line 320 assumes it always is | a 12-byte pixel format (R32G32B32), two data boxes of 12 bytes at offset 0: the second copy lands at offset 20 | round up to the next multiple of max(blockSize, 4) | medium; not executed | UploadLayout.PlanUploadMisalignsTwelveBytePixels | UploadLayout.PlanUpload |
| sources/engine/Xenko.Graphics/Vulkan/Texture.Vulkan.cs:404-432 | a staging view copies its parent's `NativeBuffer` but `OnDestroyed` only nulls image and memory for views, so the owning branch collects the buffer | destroy a staging view of a staging texture, then the texture | a view forgets every shared handle before the owning release | medium; not executed | Textures.StagingViewBufferCollectedTwice | Textures.OnDestroyed |
| sources/engine/Xenko.UI/Panels/Panel.cs:63 | `x.GetPanelZIndex() - y.GetPanelZIndex()` wraps in 32-bit arithmetic | Z-indices 2147483647 and -1: the difference wraps to -2147483648 and the higher element sorts first | compare the Z-indices without subtracting | high; not executed | ZOrder.CompareAsWrittenOverflows | ZOrder.Compare |

=== FILE: anchoring.dfy ===
/** Per-direction anchoring flags of a panel (`ActivateAnchoring`, `ShouldAnchor`). */
module Anchoring {

  datatype Orientation = Horizontal | Vertical | InDepth

  /** The array index of a direction. */
  function Index(d: Orientation): nat
  {
    match d
    case Horizontal => 0
    case Vertical => 1
    case InDepth => 2
  }

  /** The `bool[3]` of anchoring flags. */
  type AnchorFlags = s: seq<bool> | |s| == 3 witness [true, true, true]

  function ShouldAnchor(a: AnchorFlags, d: Orientation): bool
  {
    a[Index(d)]
  }

  /** Each direction reads its own flag, so the three answers of
      `ShouldAnchor` determine the flags. */
  lemma ShouldAnchorDeterminesFlags(a: AnchorFlags, b: AnchorFlags)
    requires forall d: Orientation :: ShouldAnchor(a, d) == ShouldAnchor(b, d)
    ensures a == b
  {
    assert ShouldAnchor(a, Horizontal) == ShouldAnchor(b, Horizontal);
    assert ShouldAnchor(a, Vertical) == ShouldAnchor(b, Vertical);
    assert ShouldAnchor(a, InDepth) == ShouldAnchor(b, InDepth);
    assert forall i | 0 <= i < 3 :: a[i] == b[i];
  }

  /** A new panel anchors in every direction. */
  function DefaultAnchoring(): (a: AnchorFlags)
    ensures forall d: Orientation :: ShouldAnchor(a, d)
  {
    [true, true, true]
  }

  /** Sets the flag of direction `d` and leaves the others alone. */
  function ActivateAnchoring(a: AnchorFlags, d: Orientation, enable: bool): (r: AnchorFlags)
    ensures ShouldAnchor(r, d) == enable
    ensures forall e: Orientation | e != d :: ShouldAnchor(r, e) == ShouldAnchor(a, e)
  {
    a[Index(d) := enable]
  }
}

=== FILE: arith.dfy ===
/** Integer facts about Euclidean division used by the alignment and
    mip-count proofs, and the powers of two they rest on. */
module Arith {

  /** 2^32: the modulus of 32-bit integer arithmetic. */
  const TwoTo32: nat := 0x1_0000_0000

  function Pow2(k: nat): (r: nat)
    ensures r >= 1
  {
    if k == 0 then 1 else 2 * Pow2(k - 1)
  }

  ghost predicate IsPowerOfTwo(n: nat)
  {
    exists k: nat :: Pow2(k) == n
  }

  lemma MulLeft(x: int, y: int, a: int)
    requires x <= y && a >= 0
    ensures x * a <= y * a
  {
    assert y * a - x * a == (y - x) * a;
  }

  /** A strictly larger factor gains at least one more `a`. */
  lemma MulStep(x: int, y: int, a: int)
    requires x < y && a >= 0
    ensures x * a + a <= y * a
  {
    MulLeft(x + 1, y, a);
    assert (x + 1) * a == x * a + a;
  }

  /** Division is determined by any quotient/remainder decomposition. */
  lemma DivModUnique(x: int, a: int, q: int, r: int)
    requires a >= 1 && x == q * a + r && 0 <= r < a
    ensures x / a == q && x % a == r
  {
    var q' := x / a;
    var r' := x % a;
    assert x == q' * a + r';
    if q' > q {
      MulStep(q, q', a);
      assert false;
    } else if q' < q {
      MulStep(q', q, a);
      assert false;
    }
  }

  lemma MultipleMod(q: int, a: int)
    requires a >= 1
    ensures (q * a) % a == 0 && (q * a) / a == q
  {
    DivModUnique(q * a, a, q, 0);
  }

  /** Dividing twice is dividing by the product. */
  lemma DivDiv(x: nat, a: nat, b: nat)
    requires a >= 1 && b >= 1
    ensures a * b >= 1
    ensures (x / a) / b == x / (a * b)
  {
    MulLeft(1, b, a);
    var q := x / (a * b);
    var r := x % (a * b);
    assert x == q * (a * b) + r;
    var s := r / a;
    assert r == s * a + r % a;
    if s >= b {
      MulLeft(b, s, a);
      assert false;
    }
    assert x == (q * b + s) * a + r % a;
    DivModUnique(x, a, q * b + s, r % a);
    DivModUnique(x / a, b, q, s);
  }
}

=== FILE: formats.dfy ===
/** Pixel formats, Vulkan formats and the depth-stencil format policy
    (`IsStencilFormat`, `GetFallbackDepthStencilFormat`). */
module Formats {

  /** The engine's abstract pixel formats. Only the members the policy
      distinguishes are named; every other format is `OtherPixelFormat`. */
  datatype PixelFormat =
    | R24G8_Typeless
    | D24_UNorm_S8_UInt
    | R32G8X24_Typeless
    | D32_Float_S8X24_UInt
    | D16_UNorm
    | D32_Float
    | R8G8B8A8_UNorm
    | R32G32B32_Float
    | BC1_UNorm
    | OtherPixelFormat(code: nat)

  /** Native Vulkan formats; only the three packed depth-stencil formats are named. */
  datatype VkFormat =
    | D16UNormS8UInt
    | D24UNormS8UInt
    | D32SFloatS8UInt
    | OtherVkFormat(code: nat)

  /** Lookup tables that live outside the texture code: the pixel-format
      conversion, `IsCompressed`, `SizeInBytes` and the native block size. */
  datatype FormatTable = FormatTable(
    convert: PixelFormat -> VkFormat,
    isCompressed: PixelFormat -> bool,
    sizeInBytes: PixelFormat -> nat,
    blockSizeInBytes: VkFormat -> nat)

  /** The pixel formats that carry a stencil component. */
  predicate IsStencilFormat(f: PixelFormat)
  {
    match f
    case R24G8_Typeless => true
    case D24_UNorm_S8_UInt => true
    case R32G8X24_Typeless => true
    case D32_Float_S8X24_UInt => true
    case _ => false
  }

  /** Stencil is carried by the two combined depth-stencil formats and their
      typeless resources, and by no depth-only or colour format. */
  lemma StencilFormatsAreCombined(f: PixelFormat)
    ensures IsStencilFormat(f) <==> f in {R24G8_Typeless, D24_UNorm_S8_UInt, R32G8X24_Typeless, D32_Float_S8X24_UInt}
    ensures !IsStencilFormat(D16_UNorm) && !IsStencilFormat(D32_Float)
    ensures f.OtherPixelFormat? ==> !IsStencilFormat(f)
  {
  }

  /** The native formats for which a depth-stencil fallback is searched. */
  predicate IsPackedDepthStencil(f: VkFormat)
  {
    f == D16UNormS8UInt || f == D24UNormS8UInt || f == D32SFloatS8UInt
  }

  /** The first candidate the device supports, or `default` when none is. */
  function FirstSupported(candidates: seq<VkFormat>, supported: VkFormat -> bool, default: VkFormat): (r: VkFormat)
    ensures r == default || (r in candidates && supported(r))
    ensures (forall i | 0 <= i < |candidates| :: !supported(candidates[i])) ==> r == default
  {
    if |candidates| == 0 then default
    else if supported(candidates[0]) then candidates[0]
    else FirstSupported(candidates[1..], supported, default)
  }

  /** The candidate `FirstSupported` picks is the supported one of lowest
      index: every earlier candidate is unsupported. */
  lemma {:induction false} FirstSupportedIsFirst(candidates: seq<VkFormat>, supported: VkFormat -> bool, default: VkFormat, k: nat)
    requires k < |candidates| && supported(candidates[k])
    requires forall j | 0 <= j < k :: !supported(candidates[j])
    ensures FirstSupported(candidates, supported, default) == candidates[k]
  {
    if k > 0 {
      assert !supported(candidates[0]);
      FirstSupportedIsFirst(candidates[1..], supported, default, k - 1);
    }
  }

  /** The probe order: the requested format, then most precise first. */
  function FallbackCandidates(format: VkFormat): seq<VkFormat>
  {
    [format, D32SFloatS8UInt, D24UNormS8UInt, D16UNormS8UInt]
  }

  /** `Texture.GetFallbackDepthStencilFormat`: a packed depth-stencil format
      is replaced by the first supported entry of the probe order; any other
      format, and a packed one when nothing is supported, is returned as is. */
  function GetFallbackDepthStencilFormat(supported: VkFormat -> bool, format: VkFormat): (r: VkFormat)
    ensures !IsPackedDepthStencil(format) ==> r == format
    ensures IsPackedDepthStencil(format) && supported(format) ==> r == format
    ensures IsPackedDepthStencil(format) && !supported(format) ==>
              if supported(D32SFloatS8UInt) then r == D32SFloatS8UInt
              else if supported(D24UNormS8UInt) then r == D24UNormS8UInt
              else if supported(D16UNormS8UInt) then r == D16UNormS8UInt
              else r == format
    ensures IsPackedDepthStencil(r) <==> IsPackedDepthStencil(format)
    ensures r != format ==> supported(r) && !supported(format)
  {
    if IsPackedDepthStencil(format) then FirstSupported(FallbackCandidates(format), supported, format)
    else format
  }
}

=== FILE: mip_levels.dfy ===
/** Mip-count arithmetic: `CalculateMipCountFromSize`, `CalculateMipCount`
    and `CheckMipLevels`. C#'s `/` truncates toward zero; every division
    here has a positive dividend, where it agrees with Dafny's. */
module MipLevels {
  import opened Results
  import opened Formats
  import opened TextureDescription
  import Arith

  /** Feature levels in increasing order (`GraphicsProfile`). */
  datatype GraphicsProfile = Level_9_1 | Level_9_2 | Level_9_3 | Level_10_0 | Level_10_1 | Level_11_0 | Level_11_1 | Level_11_2

  function Rank(p: GraphicsProfile): nat
  {
    match p
    case Level_9_1 => 0
    case Level_9_2 => 1
    case Level_9_3 => 2
    case Level_10_0 => 3
    case Level_10_1 => 4
    case Level_11_0 => 5
    case Level_11_1 => 6
    case Level_11_2 => 7
  }

  /** How many times `size` can be halved while the half stays at least `minimum`. */
  function Halvings(size: nat, minimum: nat): nat
    requires minimum >= 1
  {
    if size / 2 >= minimum then 1 + Halvings(size / 2, minimum) else 0
  }

  /** `CalculateMipCountFromSize`: the number of mips down to the last one
      whose half would be smaller than `minimumSizeLastMip`. */
  method CalculateMipCountFromSize(size: int, minimumSizeLastMip: int) returns (r: Result<int>)
    ensures r.Err? <==> size <= 0 || minimumSizeLastMip <= 0
    ensures r.Err? ==> r.error == ArgumentOutOfRange
    ensures r.Ok? ==> r.value >= 1 && r.value == 1 + Halvings(size, minimumSizeLastMip)
    ensures r.Ok? ==>
              && size / Arith.Pow2(r.value) < minimumSizeLastMip
              && (r.value > 1 ==> size / Arith.Pow2(r.value - 1) >= minimumSizeLastMip)
  {
    if size <= 0 {
      return Err(ArgumentOutOfRange);
    }
    if minimumSizeLastMip <= 0 {
      return Err(ArgumentOutOfRange);
    }
    var s: int := size;
    var level: int := 1;
    while s / 2 >= minimumSizeLastMip
      invariant level >= 1 && s >= 1
      invariant s == size / Arith.Pow2(level - 1)
      invariant level - 1 + Halvings(s, minimumSizeLastMip) == Halvings(size, minimumSizeLastMip)
      invariant level > 1 ==> s >= minimumSizeLastMip
      decreases s
    {
      Arith.DivDiv(size, Arith.Pow2(level - 1), 2);
      assert Arith.Pow2(level) == Arith.Pow2(level - 1) * 2;
      s := if s / 2 > 1 then s / 2 else 1;
      level := level + 1;
    }
    Arith.DivDiv(size, Arith.Pow2(level - 1), 2);
    assert Arith.Pow2(level) == Arith.Pow2(level - 1) * 2;
    return Ok(level);
  }

  /** `CalculateMipCount`: the smaller of the width and height mip counts. */
  method CalculateMipCount(width: int, height: int, minimumSizeLastMip: int) returns (r: Result<int>)
    ensures r.Err? <==> width <= 0 || height <= 0 || minimumSizeLastMip <= 0
    ensures r.Err? ==> r.error == ArgumentOutOfRange
    ensures r.Ok? ==>
              var w := 1 + Halvings(width, minimumSizeLastMip);
              var h := 1 + Halvings(height, minimumSizeLastMip);
              r.value >= 1 && r.value <= w && r.value <= h && (r.value == w || r.value == h)
  {
    var w := CalculateMipCountFromSize(width, minimumSizeLastMip);
    if w.Err? {
      return w;
    }
    var h := CalculateMipCountFromSize(height, minimumSizeLastMip);
    if h.Err? {
      return h;
    }
    return Ok(if w.value < h.value then w.value else h.value);
  }

  /** Whether `CheckMipLevels` clamps: compressed, non-depth-stencil formats below level 10.0. */
  predicate NeedsMipClamp(profile: GraphicsProfile, d: Description, formats: FormatTable)
  {
    Rank(profile) < Rank(Level_10_0) && !d.roles.depthStencil && formats.isCompressed(d.format)
  }

  /** `CheckMipLevels`: lowers `MipLevels` to the 4-pixel mip count of the
      base level when the format needs it, and changes nothing else. */
  method CheckMipLevels(profile: GraphicsProfile, d: Description, formats: FormatTable) returns (r: Result<Description>)
    ensures !NeedsMipClamp(profile, d, formats) ==> r == Ok(d)
    ensures r.Err? <==> NeedsMipClamp(profile, d, formats) && (d.width <= 0 || d.height <= 0)
    ensures r.Ok? ==> r.value == d.(mipLevels := r.value.mipLevels) && r.value.mipLevels <= d.mipLevels
    ensures r.Ok? && NeedsMipClamp(profile, d, formats) ==>
              var fit := 1 + (if Halvings(d.width, 4) < Halvings(d.height, 4) then Halvings(d.width, 4) else Halvings(d.height, 4));
              r.value.mipLevels == (if fit < d.mipLevels then fit else d.mipLevels)
  {
    if NeedsMipClamp(profile, d, formats) {
      var count := CalculateMipCount(d.width, d.height, 4);
      if count.Err? {
        return Err(count.error);
      }
      var levels := if count.value < d.mipLevels then count.value else d.mipLevels;
      return Ok(d.(mipLevels := levels));
    }
    return Ok(d);
  }
}

=== FILE: panels.dfy ===
/** Child management of `Panel`: the logical children list, the Z-sorted
    visual children list, the parent relations and the arrange-matrix
    array. Elements are numbered; an `Option<Element>` argument is a
    reference that may be C# null. */
module Panels {
  import opened Results
  import opened ZOrder

  /** Length of `childrenArrangeWorldMatrix` in a new panel. */
  const InitialArrangeCapacity: nat := 2

  /** The element tree. `panels` are the elements that are panels; for a
      panel, `children`, `visualChildren` and `arrangeCapacity` hold
      `Children`, `VisualChildrenCollection` and the length of
      `childrenArrangeWorldMatrix`, an absent entry meaning the value the
      constructor sets. `parent` and `visualParent` hold `Parent` and
      `VisualParent` (absent when null), `z` the attached `ZIndex` values,
      and `mouseOver` the elements whose `MouseOverState` is not
      `MouseOverNone`. */
  datatype UI = UI(
    panels: set<Element>,
    children: map<Element, seq<Element>>,
    visualChildren: map<Element, seq<Element>>,
    arrangeCapacity: map<Element, nat>,
    parent: map<Element, Element>,
    visualParent: map<Element, Element>,
    z: map<Element, Int32>,
    mouseOver: set<Element>)

  /** A new panel has no children and an arrange array of two matrices. */
  function Children(ui: UI, p: Element): seq<Element>
  {
    if p in ui.children then ui.children[p] else []
  }

  function VisualChildren(ui: UI, p: Element): seq<Element>
  {
    if p in ui.visualChildren then ui.visualChildren[p] else []
  }

  function ArrangeCapacity(ui: UI, p: Element): nat
  {
    if p in ui.arrangeCapacity then ui.arrangeCapacity[p] else InitialArrangeCapacity
  }

  /** The `Panel` constructor: a fresh element becomes an empty panel. */
  function NewPanel(ui: UI, p: Element): (r: UI)
    ensures p in r.panels
    ensures Children(r, p) == [] && VisualChildren(r, p) == []
    ensures ArrangeCapacity(r, p) == InitialArrangeCapacity
    ensures r.panels == ui.panels + {p}
    ensures forall q | q != p :: Children(r, q) == Children(ui, q) && VisualChildren(r, q) == VisualChildren(ui, q)
    ensures forall q | q != p :: ArrangeCapacity(r, q) == ArrangeCapacity(ui, q)
    ensures r.parent == ui.parent && r.visualParent == ui.visualParent && r.z == ui.z && r.mouseOver == ui.mouseOver
  {
    ui.(panels := ui.panels + {p},
        children := ui.children - {p},
        visualChildren := ui.visualChildren - {p},
        arrangeCapacity := ui.arrangeCapacity - {p})
  }

  /** No element occurs twice. */
  predicate NoDup(xs: seq<Element>)
  {
    forall x | x in multiset(xs) :: multiset(xs)[x] == 1
  }

  /** `List.Remove`: drops the first occurrence of `x`, keeping the order of
      the other elements; a list without `x` is returned unchanged. */
  function RemoveFirst(xs: seq<Element>, x: Element): (r: seq<Element>)
    ensures x !in xs ==> r == xs
    ensures x in xs ==> |r| == |xs| - 1
  {
    if |xs| == 0 then xs
    else if xs[0] == x then xs[1..]
    else [xs[0]] + RemoveFirst(xs[1..], x)
  }

  /** Exactly one occurrence of `x` goes, when there is one. */
  lemma {:induction false} RemoveFirstMultiset(xs: seq<Element>, x: Element)
    ensures multiset(RemoveFirst(xs, x)) == multiset(xs) - multiset{x}
  {
    if |xs| > 0 {
      assert xs == [xs[0]] + xs[1..];
      if xs[0] != x {
        RemoveFirstMultiset(xs[1..], x);
      }
    }
  }

  /** Removing an element keeps a Z-sorted list sorted, and keeps every
      lower bound of the list. */
  lemma {:induction false} RemoveFirstKeepsOrder(z: map<Element, Int32>, xs: seq<Element>, x: Element)
    requires SortedByZ(z, xs)
    ensures SortedByZ(z, RemoveFirst(xs, x))
    ensures forall lb | AllAtLeast(z, xs, lb) :: AllAtLeast(z, RemoveFirst(xs, x), lb)
  {
    if |xs| > 0 {
      var tail := xs[1..];
      assert xs == [xs[0]] + tail;
      assert AllAtLeast(z, tail, ZIndex(z, xs[0]));
      if xs[0] != x {
        RemoveFirstKeepsOrder(z, tail, x);
        SortedCons(z, xs[0], RemoveFirst(tail, x));
      }
    }
  }

  /** Removing the single occurrence of `x` from a duplicate-free list leaves
      exactly the other elements. */
  lemma RemoveFirstOfNoDup(xs: seq<Element>, x: Element)
    requires NoDup(xs)
    ensures NoDup(RemoveFirst(xs, x))
    ensures x !in RemoveFirst(xs, x)
    ensures forall y | y != x :: y in RemoveFirst(xs, x) <==> y in xs
  {
    var r: seq<Element> := RemoveFirst(xs, x);
    RemoveFirstMultiset(xs, x);
    if x in xs {
      assert multiset(xs)[x] == 1;
      assert multiset(r)[x] == 0;
    }
    forall y | y != x
      ensures y in r <==> y in xs
    {
      assert multiset(r)[y] == multiset(xs)[y];
    }
  }

  /** Removing an element just appended to a list that lacked it gives the
      list back. */
  lemma {:induction false} RemoveFirstOfAppended(xs: seq<Element>, x: Element)
    requires x !in xs
    ensures RemoveFirst(xs + [x], x) == xs
  {
    if |xs| > 0 {
      assert (xs + [x])[1..] == xs[1..] + [x];
      RemoveFirstOfAppended(xs[1..], x);
    }
  }

  /** Keeps every Z-sorted list that does not hold `e` sorted when the
      Z-index of `e` changes. */
  lemma SortedIgnoresOthers(z: map<Element, Int32>, xs: seq<Element>, e: Element, v: Int32)
    requires SortedByZ(z, xs) && e !in xs
    ensures SortedByZ(z[e := v], xs)
  {
    forall i | 0 <= i < |xs|
      ensures ZIndex(z[e := v], xs[i]) == ZIndex(z, xs[i])
    {
      assert xs[i] != e;
    }
  }

  /** The visual children of panel `q` once `c` has left its visual parent:
      only the list of that parent, when it is a panel, loses `c`. */
  function DetachedVisual(ui: UI, c: Element, q: Element): seq<Element>
  {
    if c in ui.visualParent && ui.visualParent[c] == q && q in ui.panels then RemoveFirst(VisualChildren(ui, q), c)
    else VisualChildren(ui, q)
  }

  /** The new length of `childrenArrangeWorldMatrix` once the panel has
      `count` children: it is reallocated at twice the child count only when
      it has become too short. */
  function GrowArrange(count: nat, capacity: nat): (r: nat)
    ensures count <= r && capacity <= r
    ensures r != capacity ==> r == 2 * count
    ensures count <= capacity ==> r == capacity
  {
    if count > capacity then 2 * count else capacity
  }

  /** `SetVisualParent(child, null)`. */
  method DetachVisual(ui: UI, c: Element) returns (r: UI)
    ensures r.panels == ui.panels && r.children == ui.children && r.arrangeCapacity == ui.arrangeCapacity
    ensures r.parent == ui.parent && r.z == ui.z && r.mouseOver == ui.mouseOver
    ensures r.visualParent == ui.visualParent - {c}
    ensures forall q :: VisualChildren(r, q) == DetachedVisual(ui, c, q)
  {
    if c in ui.visualParent && ui.visualParent[c] in ui.panels {
      var former := ui.visualParent[c];
      r := ui.(visualChildren := ui.visualChildren[former := RemoveFirst(VisualChildren(ui, former), c)],
               visualParent := ui.visualParent - {c});
    } else {
      r := ui.(visualParent := ui.visualParent - {c});
    }
  }

  /** `SetVisualParent(child, p)` for a panel `p`. */
  method AttachVisual(ui: UI, c: Element, p: Element) returns (r: UI)
    requires p in ui.panels
    ensures r.panels == ui.panels && r.children == ui.children && r.arrangeCapacity == ui.arrangeCapacity
    ensures r.parent == ui.parent && r.z == ui.z && r.mouseOver == ui.mouseOver
    ensures r.visualParent == ui.visualParent[c := p]
    ensures forall q | q != p :: VisualChildren(r, q) == DetachedVisual(ui, c, q)
    ensures VisualChildren(r, p) == DetachedVisual(ui, c, p) + [c]
  {
    var u := DetachVisual(ui, c);
    r := u.(visualChildren := u.visualChildren[p := VisualChildren(u, p) + [c]],
            visualParent := ui.visualParent[c := p]);
  }

  /** `VisualChildrenCollection.Sort(PanelChildrenSorter)`: the same
      children in increasing Z-index order. */
  method SortChildren(z: map<Element, Int32>, xs: seq<Element>) returns (r: seq<Element>)
    ensures SortedByZ(z, r)
    ensures multiset(r) == multiset(xs)
  {
    r := SortByZ(z, xs);
    SortByZSorts(z, xs);
  }

  /** `OnLogicalChildAdded`: the new child gets this panel as parent and
      visual parent, the visual children are re-sorted by Z-index, and the
      arrange-matrix array is grown to the child count. A null child is
      rejected. */
  method OnLogicalChildAdded(ui: UI, p: Element, child: Option<Element>) returns (r: Result<UI>)
    requires p in ui.panels
    ensures r.Err? <==> child.None?
    ensures r.Err? ==> r.error == InvalidOperation
    ensures r.Ok? ==> r.value.panels == ui.panels && r.value.children == ui.children
    ensures r.Ok? ==> r.value.z == ui.z && r.value.mouseOver == ui.mouseOver
    ensures r.Ok? ==> r.value.parent == ui.parent[child.value := p] && r.value.visualParent == ui.visualParent[child.value := p]
    ensures r.Ok? ==> SortedByZ(ui.z, VisualChildren(r.value, p))
    ensures r.Ok? ==> multiset(VisualChildren(r.value, p)) == multiset(DetachedVisual(ui, child.value, p)) + multiset{child.value}
    ensures r.Ok? ==> forall q | q != p :: VisualChildren(r.value, q) == DetachedVisual(ui, child.value, q)
    ensures r.Ok? ==> ArrangeCapacity(r.value, p) == GrowArrange(|Children(ui, p)|, ArrangeCapacity(ui, p))
    ensures r.Ok? ==> forall q | q != p :: ArrangeCapacity(r.value, q) == ArrangeCapacity(ui, q)
  {
    if child.None? {
      return Err(InvalidOperation);
    }
    var c := child.value;
    var attached := AttachVisual(ui, c, p);
    var u := attached.(parent := ui.parent[c := p]);
    var visual := VisualChildren(u, p);
    var sorted := SortChildren(u.z, visual);
    var capacity := GrowArrange(|Children(u, p)|, ArrangeCapacity(u, p));
    var installed := Install(u, p, sorted, capacity);
    r := Ok(installed);
  }

  /** Replaces panel `p`'s visual list and arrange-array length, and nothing else. */
  method Install(u: UI, p: Element, visual: seq<Element>, capacity: nat) returns (r: UI)
    ensures r.panels == u.panels && r.children == u.children && r.z == u.z && r.mouseOver == u.mouseOver
    ensures r.parent == u.parent && r.visualParent == u.visualParent
    ensures VisualChildren(r, p) == visual && ArrangeCapacity(r, p) == capacity
    ensures forall q | q != p :: VisualChildren(r, q) == VisualChildren(u, q)
    ensures forall q | q != p :: ArrangeCapacity(r, q) == ArrangeCapacity(u, q)
  {
    r := u.(visualChildren := u.visualChildren[p := visual], arrangeCapacity := u.arrangeCapacity[p := capacity]);
  }

  /** `OnLogicalChildRemoved`: the removed child loses its parent and its
      visual parent, and when it was under the mouse the panel stops being
      so. A child whose parent is already null is an internal error. */
  method OnLogicalChildRemoved(ui: UI, p: Element, c: Element) returns (r: Result<UI>)
    ensures r.Err? <==> c !in ui.parent
    ensures r.Err? ==> r.error == UIInternal
    ensures r.Ok? ==> r.value.panels == ui.panels && r.value.children == ui.children && r.value.z == ui.z
    ensures r.Ok? ==> r.value.arrangeCapacity == ui.arrangeCapacity
    ensures r.Ok? ==> r.value.parent == ui.parent - {c} && r.value.visualParent == ui.visualParent - {c}
    ensures r.Ok? ==> forall q :: VisualChildren(r.value, q) == DetachedVisual(ui, c, q)
    ensures r.Ok? && c in ui.mouseOver ==> r.value.mouseOver == ui.mouseOver - {p}
    ensures r.Ok? && c !in ui.mouseOver ==> r.value.mouseOver == ui.mouseOver
  {
    if c !in ui.parent {
      return Err(UIInternal);
    }
    var u := DetachVisual(ui, c);
    u := u.(parent := ui.parent - {c});
    if c in ui.mouseOver {
      u := u.(mouseOver := ui.mouseOver - {p});
    }
    r := Ok(u);
  }

  /** `child.Parent == this`. */
  predicate IsChildOf(ui: UI, c: Element, p: Element)
  {
    c in ui.parent && ui.parent[c] == p
  }

  /** Every listed child names its panel as parent, and every element whose
      parent is a panel is listed by it. */
  ghost predicate ParentsMatch(ui: UI)
  {
    && (forall q, c | q in ui.panels && c in Children(ui, q) :: IsChildOf(ui, c, q))
    && (forall c | c in ui.parent && ui.parent[c] in ui.panels :: c in Children(ui, ui.parent[c]))
  }

  /** A child of a panel has that panel as visual parent, and an element
      whose visual parent is a panel is that panel's child. */
  ghost predicate VisualParentsMatch(ui: UI)
  {
    forall c | (c in ui.parent && ui.parent[c] in ui.panels) || (c in ui.visualParent && ui.visualParent[c] in ui.panels) ::
      c in ui.parent && c in ui.visualParent && ui.parent[c] == ui.visualParent[c]
  }

  /** Per panel: no child twice, the visual children are the children in
      increasing Z-index order, and the arrange array has a slot per child. */
  ghost predicate ListsWellFormed(ui: UI)
  {
    forall q | q in ui.panels ::
      && NoDup(Children(ui, q))
      && multiset(VisualChildren(ui, q)) == multiset(Children(ui, q))
      && SortedByZ(ui.z, VisualChildren(ui, q))
      && |Children(ui, q)| <= ArrangeCapacity(ui, q)
  }

  /** The consistency the panel operations maintain. */
  ghost predicate Valid(ui: UI)
  {
    ParentsMatch(ui) && VisualParentsMatch(ui) && ListsWellFormed(ui)
  }

  /** The state change of `Children.Remove(c)` on panel `q`. */
  ghost predicate Removed(ui: UI, u: UI, q: Element, c: Element)
  {
    && u.panels == ui.panels && u.z == ui.z && u.arrangeCapacity == ui.arrangeCapacity
    && u.parent == ui.parent - {c} && u.visualParent == ui.visualParent - {c}
    && Children(u, q) == RemoveFirst(Children(ui, q), c)
    && (forall x | x != q :: Children(u, x) == Children(ui, x))
    && (forall x :: VisualChildren(u, x) == DetachedVisual(ui, c, x))
    && u.mouseOver == (if c in ui.mouseOver then ui.mouseOver - {q} else ui.mouseOver)
  }

  /** The state change of `Children.Add(c)` on panel `p`. */
  ghost predicate Added(ui: UI, u: UI, p: Element, c: Element)
  {
    && u.panels == ui.panels && u.z == ui.z
    && u.parent == ui.parent[c := p] && u.visualParent == ui.visualParent[c := p]
    && Children(u, p) == Children(ui, p) + [c]
    && (forall x | x != p :: Children(u, x) == Children(ui, x))
    && SortedByZ(u.z, VisualChildren(u, p))
    && multiset(VisualChildren(u, p)) == multiset(DetachedVisual(ui, c, p)) + multiset{c}
    && (forall x | x != p :: VisualChildren(u, x) == DetachedVisual(ui, c, x))
    && ArrangeCapacity(u, p) == GrowArrange(|Children(u, p)|, ArrangeCapacity(ui, p))
    && (forall x | x != p :: ArrangeCapacity(u, x) == ArrangeCapacity(ui, x))
    && u.mouseOver == ui.mouseOver
  }

  /** Removing a child from its panel keeps the tree consistent. */
  lemma RemovedKeepsValid(ui: UI, u: UI, q: Element, c: Element)
    requires Valid(ui) && q in ui.panels && IsChildOf(ui, c, q)
    requires Removed(ui, u, q, c)
    ensures Valid(u)
  {
    RemoveFirstOfNoDup(Children(ui, q), c);
    RemovedKeepsParents(ui, u, q, c);
    RemovedKeepsLists(ui, u, q, c);
  }

  lemma RemovedKeepsParents(ui: UI, u: UI, q: Element, c: Element)
    requires ParentsMatch(ui) && q in ui.panels && IsChildOf(ui, c, q)
    requires Removed(ui, u, q, c)
    requires NoDup(Children(ui, q)) && c !in Children(u, q)
    requires forall y | y != c :: y in Children(u, q) <==> y in Children(ui, q)
    ensures ParentsMatch(u)
  {
    forall x, y | x in u.panels && y in Children(u, x)
      ensures IsChildOf(u, y, x)
    {
      assert IsChildOf(ui, y, x);
    }
    forall y | y in u.parent && u.parent[y] in u.panels
      ensures y in Children(u, u.parent[y])
    {
      assert y in Children(ui, ui.parent[y]);
    }
  }

  lemma RemovedKeepsLists(ui: UI, u: UI, q: Element, c: Element)
    requires ListsWellFormed(ui) && VisualParentsMatch(ui) && q in ui.panels && IsChildOf(ui, c, q)
    requires Removed(ui, u, q, c)
    ensures ListsWellFormed(u)
  {
    var kids := Children(ui, q);
    RemoveFirstOfNoDup(kids, c);
    RemoveFirstMultiset(kids, c);
    RemoveFirstMultiset(VisualChildren(ui, q), c);
    RemoveFirstKeepsOrder(ui.z, VisualChildren(ui, q), c);
    forall x | x in u.panels
      ensures && NoDup(Children(u, x))
              && multiset(VisualChildren(u, x)) == multiset(Children(u, x))
              && SortedByZ(u.z, VisualChildren(u, x))
              && |Children(u, x)| <= ArrangeCapacity(u, x)
    {
      if x != q {
        RemovedOtherList(ui, u, q, c, x);
      }
    }
  }

  /** `Removed` leaves the lists of every other panel as they were. */
  lemma RemovedOtherList(ui: UI, u: UI, q: Element, c: Element, x: Element)
    requires VisualParentsMatch(ui) && q in ui.panels && IsChildOf(ui, c, q) && x != q
    requires Removed(ui, u, q, c)
    ensures Children(u, x) == Children(ui, x) && VisualChildren(u, x) == VisualChildren(ui, x)
    ensures ArrangeCapacity(u, x) == ArrangeCapacity(ui, x)
  {
    assert DetachedVisual(ui, c, x) == VisualChildren(ui, x);
  }

  /** Adding an element that has no parent keeps the tree consistent. */
  lemma AddedKeepsValid(ui: UI, u: UI, p: Element, c: Element)
    requires Valid(ui) && p in ui.panels && c !in ui.parent
    requires Added(ui, u, p, c)
    ensures Valid(u)
  {
    assert c !in ui.visualParent || ui.visualParent[c] !in ui.panels;
    AddedKeepsParents(ui, u, p, c);
    AddedKeepsLists(ui, u, p, c);
  }

  lemma AddedKeepsParents(ui: UI, u: UI, p: Element, c: Element)
    requires ParentsMatch(ui) && p in ui.panels && c !in ui.parent
    requires Added(ui, u, p, c)
    ensures ParentsMatch(u)
  {
    forall x, y | x in u.panels && y in Children(u, x)
      ensures IsChildOf(u, y, x)
    {
      if y != c {
        assert y in Children(ui, x);
      }
    }
    forall y | y in u.parent && u.parent[y] in u.panels
      ensures y in Children(u, u.parent[y])
    {
      if y != c {
        assert y in Children(ui, ui.parent[y]);
      }
    }
  }

  lemma AddedKeepsLists(ui: UI, u: UI, p: Element, c: Element)
    requires ListsWellFormed(ui) && ParentsMatch(ui) && p in ui.panels && c !in ui.parent
    requires c !in ui.visualParent || ui.visualParent[c] !in ui.panels
    requires Added(ui, u, p, c)
    ensures ListsWellFormed(u)
  {
    forall x | x in u.panels
      ensures && NoDup(Children(u, x))
              && multiset(VisualChildren(u, x)) == multiset(Children(u, x))
              && SortedByZ(u.z, VisualChildren(u, x))
              && |Children(u, x)| <= ArrangeCapacity(u, x)
    {
      if x == p {
        AddedPanelList(ui, u, p, c);
      } else {
        assert DetachedVisual(ui, c, x) == VisualChildren(ui, x);
      }
    }
  }

  /** The lists of the panel that gained the child. */
  lemma AddedPanelList(ui: UI, u: UI, p: Element, c: Element)
    requires ListsWellFormed(ui) && ParentsMatch(ui) && p in ui.panels && c !in ui.parent
    requires c !in ui.visualParent || ui.visualParent[c] !in ui.panels
    requires Added(ui, u, p, c)
    ensures NoDup(Children(u, p))
    ensures multiset(VisualChildren(u, p)) == multiset(Children(u, p))
  {
    var kids := Children(ui, p);
    assert c !in kids;
    assert DetachedVisual(ui, c, p) == VisualChildren(ui, p);
    assert multiset(Children(u, p)) == multiset(kids) + multiset{c};
    assert multiset(kids)[c] == 0;
  }

  /** `Children.Add(child)`: appends the child, then runs the add callback. */
  method ChildrenAdd(ui: UI, p: Element, c: Element) returns (r: UI)
    requires p in ui.panels
    ensures Added(ui, r, p, c)
    ensures r.mouseOver == ui.mouseOver
  {
    var appended := ui.(children := ui.children[p := Children(ui, p) + [c]]);
    assert forall q :: DetachedVisual(appended, c, q) == DetachedVisual(ui, c, q);
    var added := OnLogicalChildAdded(appended, p, Some(c));
    r := added.value;
  }

  /** `Children.Remove(child)`: a child in the list is removed (its first
      occurrence) and the remove callback runs; otherwise nothing happens. */
  method ChildrenRemove(ui: UI, p: Element, c: Element) returns (r: Result<UI>)
    ensures c !in Children(ui, p) ==> r == Ok(ui)
    ensures r.Err? <==> c in Children(ui, p) && c !in ui.parent
    ensures r.Err? ==> r.error == UIInternal
    ensures r.Ok? && c in Children(ui, p) ==> Removed(ui, r.value, p, c)
    ensures r.Ok? && c in Children(ui, p) && c in ui.mouseOver ==> r.value.mouseOver == ui.mouseOver - {p}
    ensures r.Ok? && c in Children(ui, p) && c !in ui.mouseOver ==> r.value.mouseOver == ui.mouseOver
  {
    if c !in Children(ui, p) {
      return Ok(ui);
    }
    var shortened := ui.(children := ui.children[p := RemoveFirst(Children(ui, p), c)]);
    assert forall q :: DetachedVisual(shortened, c, q) == DetachedVisual(ui, c, q);
    r := OnLogicalChildRemoved(shortened, p, c);
  }

  /** `AddChild`: a null child is refused (false); a child of this panel is
      left where it is (true); a child of another panel is moved here
      (true); a child of an element that is not a panel cannot be moved and
      throws. The tree stays consistent. */
  method AddChild(ui: UI, p: Element, child: Option<Element>) returns (r: Result<(bool, UI)>)
    requires p in ui.panels
    ensures child.None? ==> r == Ok((false, ui))
    ensures child.Some? && IsChildOf(ui, child.value, p) ==> r == Ok((true, ui))
    ensures r.Err? <==>
              child.Some? && child.value in ui.parent && ui.parent[child.value] != p && ui.parent[child.value] !in ui.panels
    ensures r.Err? ==> r.error == NonPanelParent
    ensures r.Ok? && child.Some? ==> r.value.0 && IsChildOf(r.value.1, child.value, p)
    ensures r.Ok? && child.Some? && child.value !in ui.parent ==> Added(ui, r.value.1, p, child.value)
    ensures r.Ok? && child.Some? && child.value in ui.parent && ui.parent[child.value] != p ==>
              var q := ui.parent[child.value];
              && Children(r.value.1, q) == RemoveFirst(Children(ui, q), child.value)
              && Children(r.value.1, p) == Children(ui, p) + [child.value]
              && child.value in r.value.1.visualParent && r.value.1.visualParent[child.value] == p
              && SortedByZ(r.value.1.z, VisualChildren(r.value.1, p))
    ensures r.Ok? && child.Some? && child.value in ui.parent && ui.parent[child.value] != p ==>
              var (c, q, u) := (child.value, ui.parent[child.value], r.value.1);
              && u.panels == ui.panels && u.z == ui.z
              && u.parent == ui.parent[c := p] && u.visualParent == ui.visualParent[c := p]
              && (forall x | x != p && x != q :: Children(u, x) == Children(ui, x))
              && (forall x | x != p :: VisualChildren(u, x) == DetachedVisual(ui, c, x))
              && (forall x | x != p :: ArrangeCapacity(u, x) == ArrangeCapacity(ui, x))
              && u.mouseOver == (if c in Children(ui, q) && c in ui.mouseOver then ui.mouseOver - {q} else ui.mouseOver)
    ensures r.Ok? && Valid(ui) ==> Valid(r.value.1)
  {
    if child.None? {
      return Ok((false, ui));
    }
    var c := child.value;
    if IsChildOf(ui, c, p) {
      return Ok((true, ui));
    }
    if c !in ui.parent {
      var u := ChildrenAdd(ui, p, c);
      if Valid(ui) {
        AddedKeepsValid(ui, u, p, c);
      }
      return Ok((true, u));
    }
    var q := ui.parent[c];
    if q !in ui.panels {
      return Err(NonPanelParent);
    }
    var detached := ChildrenRemove(ui, q, c);
    var mid := detached.value;
    var u := ChildrenAdd(mid, p, c);
    r := Ok((true, u));
    if c !in Children(ui, q) {
      assert RemoveFirst(Children(ui, q), c) == Children(ui, q);
    }
    MoveFrame(ui, mid, u, q, p, c);
    if Valid(ui) {
      RemovedKeepsValid(ui, mid, q, c);
      AddedKeepsValid(mid, u, p, c);
    }
  }

  /** A removal from `q` followed by an addition to `p` changes nothing
      but the two lists, the child's parents and `q`'s hover state. */
  lemma MoveFrame(ui: UI, mid: UI, u: UI, q: Element, p: Element, c: Element)
    requires q in ui.panels && c in ui.parent && ui.parent[c] == q && q != p
    requires c in Children(ui, q) ==> Removed(ui, mid, q, c)
    requires c !in Children(ui, q) ==> mid == ui
    requires Added(mid, u, p, c)
    ensures u.panels == ui.panels && u.z == ui.z
    ensures u.parent == ui.parent[c := p] && u.visualParent == ui.visualParent[c := p]
    ensures forall x | x != p && x != q :: Children(u, x) == Children(ui, x)
    ensures forall x | x != p :: ArrangeCapacity(u, x) == ArrangeCapacity(ui, x)
    ensures forall x | x != p :: VisualChildren(u, x) == DetachedVisual(ui, c, x)
    ensures u.mouseOver == (if c in Children(ui, q) && c in ui.mouseOver then ui.mouseOver - {q} else ui.mouseOver)
  {
    if c in Children(ui, q) {
      assert u.parent == ui.parent[c := p];
      assert u.visualParent == ui.visualParent[c := p];
      forall x | x != p
        ensures VisualChildren(u, x) == DetachedVisual(ui, c, x)
      {
        assert c !in mid.visualParent;
        assert DetachedVisual(mid, c, x) == VisualChildren(mid, x);
      }
    }
  }

  /** `RemoveChild`: removes the child exactly when this panel is its parent,
      and says so; a null child or a child of another element gives false
      and changes nothing. The tree stays consistent, and in a consistent
      tree the removed child ends with neither parent nor visual parent. */
  method RemoveChild(ui: UI, p: Element, child: Option<Element>) returns (removed: bool, r: UI)
    ensures removed <==> child.Some? && IsChildOf(ui, child.value, p)
    ensures !removed ==> r == ui
    ensures removed && child.value in Children(ui, p) ==> Removed(ui, r, p, child.value)
    ensures removed && child.value !in Children(ui, p) ==> r == ui
    ensures Valid(ui) && p in ui.panels ==> Valid(r)
    ensures Valid(ui) && p in ui.panels && removed ==> child.value !in r.parent && child.value !in r.visualParent
  {
    if child.None? || !IsChildOf(ui, child.value, p) {
      return false, ui;
    }
    var c := child.value;
    var detached := ChildrenRemove(ui, p, c);
    removed, r := true, detached.value;
    if Valid(ui) && p in ui.panels {
      RemovedKeepsValid(ui, r, p, c);
    }
  }

  /** In a consistent tree a panel lists exactly the elements whose parent
      it is, so `RemoveChild` reports true exactly for listed children. */
  lemma ListedIffChild(ui: UI, p: Element, c: Element)
    requires Valid(ui) && p in ui.panels
    ensures IsChildOf(ui, c, p) <==> c in Children(ui, p)
  {
  }

  /** Adding an element without a parent and removing it again restores the
      logical tree and the contents of every visual children list; only a
      visual parent that was not a panel is forgotten. */
  lemma AddThenRemoveRestores(ui: UI, u: UI, w: UI, p: Element, c: Element)
    requires Valid(ui) && p in ui.panels && c !in ui.parent
    requires Added(ui, u, p, c) && Removed(u, w, p, c)
    ensures w.parent == ui.parent
    ensures w.visualParent == ui.visualParent - {c}
    ensures forall x :: Children(w, x) == Children(ui, x)
    ensures forall x :: multiset(VisualChildren(w, x)) == multiset(VisualChildren(ui, x))
  {
    assert c !in Children(ui, p);
    assert !(c in ui.visualParent && ui.visualParent[c] in ui.panels);
    AddThenRemoveLogical(ui, u, w, p, c);
    forall x
      ensures multiset(VisualChildren(w, x)) == multiset(VisualChildren(ui, x))
    {
      AddThenRemoveVisual(ui, u, w, p, c, x);
    }
  }

  /** The logical part of `AddThenRemoveRestores`. */
  lemma AddThenRemoveLogical(ui: UI, u: UI, w: UI, p: Element, c: Element)
    requires c !in ui.parent && c !in Children(ui, p)
    requires Added(ui, u, p, c) && Removed(u, w, p, c)
    ensures w.parent == ui.parent
    ensures w.visualParent == ui.visualParent - {c}
    ensures forall x :: Children(w, x) == Children(ui, x)
  {
    RemoveFirstOfAppended(Children(ui, p), c);
    SetThenDrop(ui.parent, c, p);
    SetThenDrop(ui.visualParent, c, p);
  }

  /** Setting a key and then dropping it forgets the key. */
  lemma SetThenDrop(m: map<Element, Element>, c: Element, p: Element)
    ensures m[c := p] - {c} == m - {c}
  {
  }

  /** The visual children part of `AddThenRemoveRestores`, one list at a time. */
  lemma AddThenRemoveVisual(ui: UI, u: UI, w: UI, p: Element, c: Element, x: Element)
    requires p in ui.panels && !(c in ui.visualParent && ui.visualParent[c] in ui.panels)
    requires Added(ui, u, p, c) && Removed(u, w, p, c)
    ensures multiset(VisualChildren(w, x)) == multiset(VisualChildren(ui, x))
  {
    AddedVisualAt(ui, u, p, c, x);
    RemovedVisualAt(u, w, p, c, x);
    if x == p {
      RemoveFirstMultiset(VisualChildren(u, p), c);
    }
  }

  /** What `Added` says of one visual list when the element had no visual parent. */
  lemma AddedVisualAt(ui: UI, u: UI, p: Element, c: Element, x: Element)
    requires p in ui.panels && !(c in ui.visualParent && ui.visualParent[c] in ui.panels)
    requires Added(ui, u, p, c)
    ensures c in u.visualParent && u.visualParent[c] == p && p in u.panels
    ensures x != p ==> VisualChildren(u, x) == VisualChildren(ui, x)
    ensures x == p ==> multiset(VisualChildren(u, p)) == multiset(VisualChildren(ui, p)) + multiset{c}
  {
    assert DetachedVisual(ui, c, x) == VisualChildren(ui, x);
  }

  /** What `Removed` says of one visual list when the element's visual parent is `p`. */
  lemma RemovedVisualAt(u: UI, w: UI, p: Element, c: Element, x: Element)
    requires c in u.visualParent && u.visualParent[c] == p && p in u.panels
    requires Removed(u, w, p, c)
    ensures VisualChildren(w, x) == if x == p then RemoveFirst(VisualChildren(u, p), c) else VisualChildren(u, x)
  {
    assert VisualChildren(w, x) == DetachedVisual(u, c, x);
  }

  /** Setting the attached `ZIndex` of an element, with the invalidation
      callback that re-sorts the visual children of its visual parent. */
  method SetZIndex(ui: UI, e: Element, v: Int32) returns (r: UI)
    ensures r.z == ui.z[e := v]
    ensures r.(visualChildren := ui.visualChildren, z := ui.z) == ui
    ensures e in ui.visualParent && ui.visualParent[e] in ui.panels ==>
              var q := ui.visualParent[e];
              && SortedByZ(r.z, VisualChildren(r, q))
              && multiset(VisualChildren(r, q)) == multiset(VisualChildren(ui, q))
    ensures forall x | !(e in ui.visualParent && ui.visualParent[e] == x) :: VisualChildren(r, x) == VisualChildren(ui, x)
    ensures Valid(ui) ==> Valid(r)
  {
    r := ui.(z := ui.z[e := v]);
    if e in ui.visualParent && ui.visualParent[e] in ui.panels {
      var q := ui.visualParent[e];
      var sorted := SortChildren(r.z, VisualChildren(ui, q));
      r := r.(visualChildren := ui.visualChildren[q := sorted]);
    }
    if Valid(ui) {
      ZChangeKeepsValid(ui, r, e, v);
    }
  }

  /** A Z-index change with the visual parent re-sorted keeps the tree
      consistent: no other panel lists the element. */
  lemma ZChangeKeepsValid(ui: UI, r: UI, e: Element, v: Int32)
    requires Valid(ui)
    requires r.z == ui.z[e := v]
    requires r.(visualChildren := ui.visualChildren, z := ui.z) == ui
    requires e in ui.visualParent && ui.visualParent[e] in ui.panels ==>
               var q := ui.visualParent[e];
               && SortedByZ(r.z, VisualChildren(r, q))
               && multiset(VisualChildren(r, q)) == multiset(VisualChildren(ui, q))
    requires forall x | !(e in ui.visualParent && ui.visualParent[e] == x) :: VisualChildren(r, x) == VisualChildren(ui, x)
    ensures Valid(r)
  {
    assert ParentsMatch(r) && VisualParentsMatch(r);
    forall x | x in r.panels
      ensures && NoDup(Children(r, x))
              && multiset(VisualChildren(r, x)) == multiset(Children(r, x))
              && SortedByZ(r.z, VisualChildren(r, x))
              && |Children(r, x)| <= ArrangeCapacity(r, x)
    {
      assert e in VisualChildren(ui, x) ==> e in multiset(Children(ui, x));
      assert e in Children(ui, x) ==> IsChildOf(ui, e, x);
      assert IsChildOf(ui, e, x) ==> e in ui.visualParent && ui.visualParent[e] == x;
      if !(e in ui.visualParent && ui.visualParent[e] == x) {
        assert e !in VisualChildren(ui, x);
        SortedIgnoresOthers(ui.z, VisualChildren(ui, x), e, v);
      }
    }
  }

  /** A newly constructed panel, referenced by no element yet, keeps the
      tree consistent. */
  lemma NewPanelKeepsValid(ui: UI, p: Element)
    requires Valid(ui) && p !in ui.panels
    requires forall c | c in ui.parent :: ui.parent[c] != p
    requires forall c | c in ui.visualParent :: ui.visualParent[c] != p
    ensures Valid(NewPanel(ui, p))
  {
    var r := NewPanel(ui, p);
    forall x, y | x in r.panels && y in Children(r, x)
      ensures IsChildOf(r, y, x)
    {
      assert x != p;
    }
  }
}

=== FILE: results.dfy ===
/** Failure-carrying values shared by the texture and panel models.
    `Err` stands for the exception the C# code throws; its payload names the
    exception class. */
module Results {

  /** A value or the absence of one (C# `null`). */
  datatype Option<+T> = None | Some(value: T)

  /** The exception classes thrown by the modelled code. */
  datatype Error =
    | InvalidOperation      // System.InvalidOperationException
    | NotSupported          // System.NotSupportedException
    | NotImplemented        // System.NotImplementedException
    | ArgumentOutOfRange    // System.ArgumentOutOfRangeException
    | NonPanelParent        // System.Exception raised when re-parenting away from a non-Panel
    | UIInternal            // Xenko.UI.UIInternalException

  /** The outcome of an operation that may throw. */
  datatype Result<+T> = Ok(value: T) | Err(error: Error)
}

=== FILE: texture_description.dfy ===
/** The immutable description of a texture (`TextureDescription` plus the
    view parameters a texture is created with). */
module TextureDescription {
  import opened Formats
  import opened VulkanFlags

  datatype Dimension = Texture1D | Texture2D | Texture3D | TextureCube

  datatype Usage = Default | Immutable | Dynamic | Staging

  /** Which part of the texture a view covers (`ViewType`). */
  datatype ViewType = Full | Single | ArrayBand | MipBand

  /** One mip level as `GetMipMapDescription` reports it. */
  datatype MipDesc = MipDesc(width: nat, height: nat, depth: nat, depthStride: nat)

  /** The view range `GetViewSliceBounds` reports for the texture's view
      parameters: first layer or depth slice, first mip, and their counts. */
  datatype SliceBounds = SliceBounds(arrayOrDepthSlice: nat, mipIndex: nat, arrayOrDepthCount: nat, mipCount: nat)

  datatype Description = Description(
    dimension: Dimension,
    width: int,
    height: int,
    depth: int,
    mipLevels: int,
    arraySize: int,
    format: PixelFormat,
    viewFormat: PixelFormat,
    roles: Roles,
    usage: Usage,
    multisample: bool,
    viewType: ViewType)
}

=== FILE: textures.dfy ===
/** The texture resource lifecycle (`Texture.Vulkan.cs`): initialization of
    the native state from the description, the upload of initial data,
    destruction through the deferred collector, recreation after a device
    reset, and the in-place swap of native state. Native calls are replaced
    by a `Device` record: fresh handles are numbered from `nextHandle`,
    memory allocation succeeds when `memoryAvailable`, and the upload
    allocator hands out the region starting at `uploadOffset`. */
module Textures {
  import opened Results
  import opened Formats
  import opened VulkanFlags
  import opened TextureDescription
  import opened UploadLayout
  import opened Views
  import Arith

  /** Every native field of a texture; exactly the fields `SwapInternal` exchanges. */
  datatype NativeState = NativeState(
    image: Handle,
    buffer: Handle,
    colorAttachmentView: Handle,
    depthStencilView: Handle,
    imageView: Handle,
    notOwning: bool,
    initialized: bool,
    format: VkFormat,
    hasStencil: bool,
    layout: Layout,
    accessMask: set<Access>,
    aspect: set<Aspect>,
    memory: Handle,
    stagingFenceValue: int,
    stagingBuilder: Handle,
    stageMask: set<Stage>)

  /** What a texture view reads from its parent texture. */
  datatype Parent = Parent(image: Handle, buffer: Handle, memory: Handle, active: bool)

  /** A texture: its description, the mip descriptions and view bounds the
      engine derives from it, an optional parent, and its native state. */
  datatype Texture = Texture(
    desc: Description,
    mips: seq<MipDesc>,
    viewBounds: SliceBounds,
    parent: Option<Parent>,
    native: NativeState)

  /** Description invariants the engine establishes before initialization. */
  predicate WellFormed(t: Texture)
  {
    t.desc.mipLevels >= 1 && t.desc.arraySize >= 1 && |t.mips| == t.desc.mipLevels
  }

  /** The parts of the graphics device the texture code consults. */
  datatype Device = Device(
    formats: FormatTable,
    supported: VkFormat -> bool,
    nextHandle: nat,
    memoryAvailable: bool,
    uploadOffset: nat)

  /** `AllocateMemory`: a fresh memory handle, or Null when allocation fails. */
  function AllocatedMemory(dev: Device): (h: Handle)
    ensures h != Null <==> dev.memoryAvailable
  {
    if dev.memoryAvailable then Handle(dev.nextHandle + 1) else Null
  }

  /** The handle a created view receives, Null when no view was needed. */
  function ViewHandle(v: ViewRequest, id: nat): (h: Handle)
    ensures h == Null <==> v.NoView?
  {
    if v.NoView? then Null else Handle(id)
  }

  // ---------------------------------------------------------------------
  // Upload of initial data (InitializeImage)
  // ---------------------------------------------------------------------

  /** An image memory barrier over the whole subresource range. */
  datatype Barrier = Barrier(srcAccess: set<Access>, dstAccess: set<Access>, oldLayout: Layout, newLayout: Layout, aspect: set<Aspect>)

  /** A buffer memory barrier over `size` bytes from `offset`. */
  datatype BufferBarrier = BufferBarrier(srcAccess: set<Access>, dstAccess: set<Access>, offset: nat, size: nat)

  /** The stage masks of one `vkCmdPipelineBarrier`. */
  datatype StagePair = StagePair(src: set<Stage>, dst: set<Stage>)

  /** The staging copy: the upload plan, and the pipeline barrier before it
      (its stages, the barrier on the upload region and the barrier that
      prepares the image). */
  datatype StagingCopy = StagingCopy(plan: UploadPlan, stages: StagePair, uploadBarrier: BufferBarrier, acquire: Barrier)

  /** The recorded one-shot command buffer: an optional transfer and the
      final pipeline barrier into the steady state. */
  datatype Upload = Upload(transfer: Option<StagingCopy>, releaseStages: StagePair, release: Barrier)

  /** The transfer block size: the native block size of a compressed format,
      the pixel size otherwise. */
  function BlockSize(t: Texture, dev: Device, nativeFormat: VkFormat): nat
  {
    if dev.formats.isCompressed(t.desc.format) then dev.formats.blockSizeInBytes(nativeFormat)
    else dev.formats.sizeInBytes(t.desc.format)
  }

  /** `InitializeImage`: records the upload of the data boxes (given by their
      slice pitches) and the transition into the steady state `n`; returns
      the recorded commands and the new `IsInitialized` flag. */
  function InitializeImage(t: Texture, n: NativeState, dev: Device, data: seq<nat>): (r: (Upload, bool))
    requires WellFormed(t)
    ensures r.0.releaseStages == StagePair({Transfer}, {AllCommands})
    ensures r.0.release.newLayout == n.layout && r.0.release.dstAccess == n.accessMask
    ensures r.0.release.aspect == n.aspect
    ensures |data| == 0 ==> r.0.release.oldLayout == Undefined && r.0.release.srcAccess == {} && r.0.transfer.None?
    ensures |data| > 0 ==> r.0.release.oldLayout == TransferDstOptimal && r.0.release.srcAccess == {TransferWrite}
    ensures |data| > 0 <==> r.0.transfer.Some?
    ensures r.0.transfer.Some? ==>
              var x := r.0.transfer.value;
              && x.plan == PlanUpload(dev.uploadOffset, data, BlockSize(t, dev, n.format), t.mips)
              && x.stages == StagePair({Host}, {Transfer})
              && x.uploadBarrier == BufferBarrier({HostWrite}, {TransferRead}, dev.uploadOffset, x.plan.totalSize)
              && x.acquire == Barrier({}, {TransferWrite}, Undefined, TransferDstOptimal, n.aspect)
    ensures r.1 == (|data| > 0 || n.initialized)
  {
    var release := StagePair({Transfer}, {AllCommands});
    if |data| > 0 then
      var plan := PlanUpload(dev.uploadOffset, data, BlockSize(t, dev, n.format), t.mips);
      var uploadBarrier := BufferBarrier({HostWrite}, {TransferRead}, dev.uploadOffset, plan.totalSize);
      var acquire := Barrier({}, {TransferWrite}, Undefined, TransferDstOptimal, n.aspect);
      (Upload(Some(StagingCopy(plan, StagePair({Host}, {Transfer}), uploadBarrier, acquire)), release,
              Barrier({TransferWrite}, n.accessMask, TransferDstOptimal, n.layout, n.aspect)), true)
    else
      (Upload(None, release, Barrier({}, n.accessMask, Undefined, n.layout, n.aspect)), n.initialized)
  }

  /** The recorded upload is the whole of `PlanUpload`'s layout: one copy
      per data box, of its size, addressing slice `i / MipLevels` and mip
      `i % MipLevels`, every copy inside the region the upload barrier makes
      visible to the transfer and no two copies overlapping. */
  lemma UploadCopiesInsideBarrier(t: Texture, n: NativeState, dev: Device, data: seq<nat>)
    requires WellFormed(t) && |data| > 0
    ensures var x := InitializeImage(t, n, dev, data).0.transfer.value;
            && |x.plan.copies| == |data|
            && x.uploadBarrier.size == |data| * AlignmentMask(BlockSize(t, dev, n.format)) + Sum(data)
            && (forall i | 0 <= i < |data| :: Addresses(x.plan.copies[i], i, data[i], t.mips))
            && Placed(x.plan.copies, x.uploadBarrier.offset, x.uploadBarrier.offset + x.uploadBarrier.size)
  {
  }

  /** Every copy of the initial data starts at a multiple of the block size
      (the compressed block or the pixel) when that is at least 4, and at a
      multiple of 4 for smaller blocks. */
  lemma UploadAlignedToBlockSize(t: Texture, n: NativeState, dev: Device, data: seq<nat>)
    requires WellFormed(t) && |data| > 0
    ensures var plan := InitializeImage(t, n, dev, data).0.transfer.value.plan;
            var b := BlockSize(t, dev, n.format);
            forall i | 0 <= i < |plan.copies| ::
              && (b >= 4 ==> plan.copies[i].bufferOffset % b == 0)
              && (b <= 4 ==> plan.copies[i].bufferOffset % 4 == 0)
  {
  }

  // ---------------------------------------------------------------------
  // InitializeFromImpl
  // ---------------------------------------------------------------------

  /** The result of a successful initialization: the new native state, the
      upload recorded (only when an image was created), and the three views. */
  datatype Initialized = Initialized(
    native: NativeState,
    upload: Option<Upload>,
    colorView: ViewRequest,
    depthStencilView: ViewRequest,
    imageView: ViewRequest)

  /** The format, stencil flag and aspect every initialization path sets first. */
  function ResolveFormat(t: Texture, dev: Device): (n: NativeState)
    ensures n.hasStencil == IsStencilFormat(t.desc.viewFormat)
    ensures n.aspect == ImageAspect(t.desc.roles.depthStencil, t.desc.viewFormat)
    ensures t.desc.roles.depthStencil && n.hasStencil ==>
              n.format == GetFallbackDepthStencilFormat(dev.supported, dev.formats.convert(t.desc.viewFormat))
    ensures !(t.desc.roles.depthStencil && n.hasStencil) ==> n.format == dev.formats.convert(t.desc.viewFormat)
    ensures n == t.native.(format := n.format, hasStencil := n.hasStencil, aspect := n.aspect)
  {
    var d := t.desc;
    var hasStencil := IsStencilFormat(d.viewFormat);
    var converted := dev.formats.convert(d.viewFormat);
    var format := if d.roles.depthStencil && hasStencil then GetFallbackDepthStencilFormat(dev.supported, converted) else converted;
    t.native.(format := format, hasStencil := hasStencil, aspect := ImageAspect(d.roles.depthStencil, d.viewFormat))
  }

  /** The staging path: a host-visible buffer, or the parent's buffer for a
      staging view. */
  function InitializeStaging(t: Texture, n: NativeState, dev: Device, data: seq<nat>): (r: Result<Initialized>)
    ensures r.Err? <==> n.image != Null || n.notOwning || (t.parent.None? && |data| > 0)
    ensures r.Err? ==> r.error == InvalidOperation
    ensures r.Ok? ==>
              var m := r.value.native;
              && m == n.(accessMask := {HostRead, HostWrite}, stageMask := {Host}, buffer := m.buffer, memory := m.memory)
              && m.accessMask == {HostRead, HostWrite} && m.stageMask == {Host}
              && r.value.upload.None?
              && r.value.colorView.NoView? && r.value.depthStencilView.NoView? && r.value.imageView.NoView?
    ensures r.Ok? && t.parent.Some? ==>
              r.value.native.buffer == t.parent.value.buffer && r.value.native.memory == t.parent.value.memory
    ensures r.Ok? && t.parent.None? ==>
              r.value.native.buffer == Handle(dev.nextHandle)
              && r.value.native.memory == AllocatedMemory(dev)
  {
    if n.image != Null then Err(InvalidOperation)
    else if n.notOwning then Err(InvalidOperation)
    else
      var host := n.(accessMask := {HostRead, HostWrite}, stageMask := {Host});
      if t.parent.Some? then
        Ok(Initialized(host.(buffer := t.parent.value.buffer, memory := t.parent.value.memory), None, NoView, NoView, NoView))
      else
        var created := host.(buffer := Handle(dev.nextHandle), memory := AllocatedMemory(dev));
        if |data| > 0 then Err(InvalidOperation)
        else Ok(Initialized(created, None, NoView, NoView, NoView))
  }

  /** One mip level's contribution to the staging buffer size: the 32-bit
      product `DepthStride * Depth * ArraySize`, reinterpreted as unsigned. */
  function MipBytes(m: MipDesc, arraySize: nat): (b: nat)
    ensures b < Arith.TwoTo32
    ensures m.depthStride * m.depth * arraySize < Arith.TwoTo32 ==> b == m.depthStride * m.depth * arraySize
  {
    (m.depthStride * m.depth * arraySize) % Arith.TwoTo32
  }

  /** The staging buffer size: the contributions of mips `0 .. |mips|`. */
  function BufferSize(mips: seq<MipDesc>, arraySize: nat): nat
  {
    if |mips| == 0 then 0 else BufferSize(mips[..|mips| - 1], arraySize) + MipBytes(mips[|mips| - 1], arraySize)
  }

  /** Bytes of every mip level of one array slice, without wrap-around. */
  function MipLevelBytes(mips: seq<MipDesc>): nat
  {
    if |mips| == 0 then 0 else MipLevelBytes(mips[..|mips| - 1]) + mips[|mips| - 1].depthStride * mips[|mips| - 1].depth
  }

  /** `CreateBuffer`: the size requested for a staging texture's buffer,
      accumulated mip by mip. */
  method CreateBufferSize(mips: seq<MipDesc>, arraySize: nat) returns (size: nat)
    ensures size == BufferSize(mips, arraySize)
    ensures size < |mips| * Arith.TwoTo32 || |mips| == 0
  {
    size := 0;
    var i := 0;
    while i < |mips|
      invariant 0 <= i <= |mips|
      invariant size == BufferSize(mips[..i], arraySize)
      invariant size <= i * (Arith.TwoTo32 - 1)
    {
      assert mips[..i + 1][..i] == mips[..i];
      size := size + MipBytes(mips[i], arraySize);
      i := i + 1;
    }
    assert mips[..i] == mips;
  }

  /** Without 32-bit wrap-around the size is the array size times the bytes
      of one slice of every mip level. */
  lemma {:induction false} BufferSizeWithoutWrap(mips: seq<MipDesc>, arraySize: nat)
    requires forall i | 0 <= i < |mips| :: mips[i].depthStride * mips[i].depth * arraySize < Arith.TwoTo32
    ensures BufferSize(mips, arraySize) == arraySize * MipLevelBytes(mips)
  {
    if |mips| > 0 {
      var init := mips[..|mips| - 1];
      var last := mips[|mips| - 1];
      BufferSizeWithoutWrap(init, arraySize);
      assert arraySize * MipLevelBytes(mips)
             == arraySize * MipLevelBytes(init) + arraySize * (last.depthStride * last.depth);
      assert arraySize * (last.depthStride * last.depth) == last.depthStride * last.depth * arraySize;
    }
  }

  /** The image path: steady-state layout, then the parent's image for a
      view, a new image with its upload for an owning texture, nothing for a
      wrapper of external handles; then the three views unless non-owning. */
  function InitializeImageResource(t: Texture, n: NativeState, dev: Device, data: seq<nat>): (r: Result<Initialized>)
    requires WellFormed(t)
    ensures n.image != Null ==> r == Err(InvalidOperation)
    ensures r.Ok? ==>
              var m := r.value.native;
              && m.layout == SteadyLayout(t.desc.roles)
              && m.accessMask == SteadyAccess(t.desc.roles)
              && m.stageMask == SteadyStages(t.desc.roles)
              && m == n.(layout := m.layout, accessMask := m.accessMask, stageMask := m.stageMask,
                         image := m.image, memory := m.memory, initialized := m.initialized,
                         colorAttachmentView := m.colorAttachmentView, depthStencilView := m.depthStencilView,
                         imageView := m.imageView)
    ensures r.Ok? && t.parent.Some? ==>
              && r.value.native.image == t.parent.value.image
              && r.value.native.memory == t.parent.value.memory
              && r.value.upload.None?
    ensures r.Ok? && t.parent.None? && n.notOwning ==>
              r.value.native.image == Null && r.value.native.memory == n.memory && r.value.upload.None?
    ensures r.Ok? && t.parent.None? && !n.notOwning ==>
              && r.value.native.image == Handle(dev.nextHandle)
              && r.value.native.memory == AllocatedMemory(dev)
              && r.value.upload.Some?
              && r.value.upload.value.release.newLayout == SteadyLayout(t.desc.roles)
              && r.value.upload.value.release.dstAccess == SteadyAccess(t.desc.roles)
              && (r.value.upload.value.transfer.Some? <==> |data| > 0)
              && (|data| > 0 ==> r.value.upload.value.transfer.value.plan
                                   == PlanUpload(dev.uploadOffset, data, BlockSize(t, dev, n.format), t.mips))
              && r.value.native.initialized == (|data| > 0 || n.initialized)
    ensures r.Ok? && (t.parent.Some? || n.notOwning) ==> r.value.native.initialized == n.initialized
    ensures r.Ok? && n.notOwning ==>
              && r.value.colorView.NoView? && r.value.depthStencilView.NoView? && r.value.imageView.NoView?
              && r.value.native.colorAttachmentView == n.colorAttachmentView
              && r.value.native.depthStencilView == n.depthStencilView
              && r.value.native.imageView == n.imageView
    ensures r.Ok? && !n.notOwning ==>
              && ColorAttachmentView(t.desc, n.format, t.viewBounds) == Ok(r.value.colorView)
              && DepthStencilView(t.desc, n.format, n.aspect) == r.value.depthStencilView
              && ImageView(t.desc, n.format, t.viewBounds) == Ok(r.value.imageView)
              && (r.value.native.colorAttachmentView == Null <==> !t.desc.roles.renderTarget)
              && (r.value.native.depthStencilView == Null <==> !t.desc.roles.depthStencil)
              && (r.value.native.imageView == Null <==> !t.desc.roles.shaderResource)
    ensures n.image == Null && !n.notOwning ==>
              (r.Err? <==> ((t.desc.roles.renderTarget && ColorAttachmentViewRejected(t.desc))
                            || (t.desc.roles.shaderResource && ImageViewRejected(t.desc))))
  {
    if n.image != Null then Err(InvalidOperation)
    else
      var (backed, upload) := BackImage(t, n, dev, data);
      if n.notOwning then Ok(Initialized(backed, upload, NoView, NoView, NoView))
      else AttachViews(t, backed, upload, dev)
  }

  /** The image behind a texture: steady-state layout, then the parent's
      image for a view, a new image with its upload for an owning texture,
      and nothing for a wrapper of external handles. */
  function BackImage(t: Texture, n: NativeState, dev: Device, data: seq<nat>): (r: (NativeState, Option<Upload>))
    requires WellFormed(t)
    ensures && r.0.layout == SteadyLayout(t.desc.roles)
            && r.0.accessMask == SteadyAccess(t.desc.roles)
            && r.0.stageMask == SteadyStages(t.desc.roles)
            && r.0 == n.(layout := r.0.layout, accessMask := r.0.accessMask, stageMask := r.0.stageMask,
                         image := r.0.image, memory := r.0.memory, initialized := r.0.initialized)
    ensures t.parent.Some? ==>
              r.0.image == t.parent.value.image && r.0.memory == t.parent.value.memory && r.1.None?
    ensures t.parent.None? && n.notOwning ==> r.0.image == n.image && r.0.memory == n.memory && r.1.None?
    ensures t.parent.None? && !n.notOwning ==>
              && r.0.image == Handle(dev.nextHandle)
              && r.0.memory == AllocatedMemory(dev)
              && r.1.Some?
              && r.1.value.release.newLayout == SteadyLayout(t.desc.roles)
              && r.1.value.release.dstAccess == SteadyAccess(t.desc.roles)
              && (r.1.value.transfer.Some? <==> |data| > 0)
              && (|data| > 0 ==> r.1.value.transfer.value.plan
                                   == PlanUpload(dev.uploadOffset, data, BlockSize(t, dev, n.format), t.mips))
              && r.0.initialized == (|data| > 0 || n.initialized)
    ensures t.parent.Some? || n.notOwning ==> r.0.initialized == n.initialized
  {
    var roles := t.desc.roles;
    var steady := n.(layout := SteadyLayout(roles), accessMask := SteadyAccess(roles), stageMask := SteadyStages(roles));
    if t.parent.Some? then
      (steady.(image := t.parent.value.image, memory := t.parent.value.memory), None)
    else if !n.notOwning then
      var created := steady.(image := Handle(dev.nextHandle), memory := AllocatedMemory(dev));
      var (up, initialized) := InitializeImage(t, created, dev, data);
      (created.(initialized := initialized), Some(up))
    else (steady, None)
  }

  /** The three views of an owning texture, each created only for its role,
      with handles after the image and its memory. */
  function AttachViews(t: Texture, backed: NativeState, upload: Option<Upload>, dev: Device): (r: Result<Initialized>)
    requires WellFormed(t)
    ensures r.Ok? ==>
              && r.value.native == backed.(colorAttachmentView := r.value.native.colorAttachmentView,
                                           depthStencilView := r.value.native.depthStencilView,
                                           imageView := r.value.native.imageView)
              && r.value.upload == upload
              && ColorAttachmentView(t.desc, backed.format, t.viewBounds) == Ok(r.value.colorView)
              && DepthStencilView(t.desc, backed.format, backed.aspect) == r.value.depthStencilView
              && ImageView(t.desc, backed.format, t.viewBounds) == Ok(r.value.imageView)
              && r.value.native.colorAttachmentView == ViewHandle(r.value.colorView, dev.nextHandle + 2)
              && r.value.native.depthStencilView == ViewHandle(r.value.depthStencilView, dev.nextHandle + 3)
              && r.value.native.imageView == ViewHandle(r.value.imageView, dev.nextHandle + 4)
              && (r.value.native.colorAttachmentView == Null <==> !t.desc.roles.renderTarget)
              && (r.value.native.depthStencilView == Null <==> !t.desc.roles.depthStencil)
              && (r.value.native.imageView == Null <==> !t.desc.roles.shaderResource)
    ensures r.Err? <==> ((t.desc.roles.renderTarget && ColorAttachmentViewRejected(t.desc))
                         || (t.desc.roles.shaderResource && ImageViewRejected(t.desc)))
  {
    match ColorAttachmentView(t.desc, backed.format, t.viewBounds)
    case Err(e) => Err(e)
    case Ok(cv) =>
      var dv := DepthStencilView(t.desc, backed.format, backed.aspect);
      match ImageView(t.desc, backed.format, t.viewBounds)
      case Err(e) => Err(e)
      case Ok(iv) =>
        var viewed := backed.(
          colorAttachmentView := ViewHandle(cv, dev.nextHandle + 2),
          depthStencilView := ViewHandle(dv, dev.nextHandle + 3),
          imageView := ViewHandle(iv, dev.nextHandle + 4));
        Ok(Initialized(viewed, upload, cv, dv, iv))
  }

  /** `InitializeFromImpl` (and the public `Recreate`, which calls it). */
  function InitializeFromImpl(t: Texture, dev: Device, data: seq<nat>): (r: Result<Initialized>)
    requires WellFormed(t)
    ensures r.Ok? ==>
              && r.value.native.hasStencil == IsStencilFormat(t.desc.viewFormat)
              && r.value.native.aspect == ImageAspect(t.desc.roles.depthStencil, t.desc.viewFormat)
              && r.value.native.format == ResolveFormat(t, dev).format
              && r.value.native.notOwning == t.native.notOwning
    ensures r.Ok? && (t.desc.usage == Staging || t.native.notOwning) ==>
              r.value.colorView.NoView? && r.value.depthStencilView.NoView? && r.value.imageView.NoView?
    ensures r.Ok? && t.desc.usage != Staging && !t.native.notOwning ==>
              var n := ResolveFormat(t, dev);
              && ColorAttachmentView(t.desc, n.format, t.viewBounds) == Ok(r.value.colorView)
              && DepthStencilView(t.desc, n.format, n.aspect) == r.value.depthStencilView
              && ImageView(t.desc, n.format, t.viewBounds) == Ok(r.value.imageView)
    ensures t.native.image != Null ==> r == Err(InvalidOperation)
    ensures t.desc.usage == Staging && t.native.notOwning ==> r == Err(InvalidOperation)
    ensures t.desc.usage == Staging && t.parent.None? && |data| > 0 ==> r == Err(InvalidOperation)
    ensures t.desc.usage == Staging && t.parent.Some? && t.native.image == Null && !t.native.notOwning ==>
              r.Ok? && r.value.native.buffer == t.parent.value.buffer && r.value.native.memory == t.parent.value.memory
    ensures r.Ok? && t.desc.usage != Staging ==>
              r.value.native.layout == SteadyLayout(t.desc.roles)
              && r.value.native.accessMask == SteadyAccess(t.desc.roles)
              && r.value.native.stageMask == SteadyStages(t.desc.roles)
    ensures r.Ok? && t.desc.usage != Staging && t.parent.None? && !t.native.notOwning ==>
              r.value.upload.Some? && r.value.upload.value.release.newLayout == SteadyLayout(t.desc.roles)
    ensures r.Ok? && t.desc.usage != Staging && t.parent.None? && !t.native.notOwning && |data| > 0 ==>
              r.value.upload.value.transfer.Some?
              && r.value.upload.value.transfer.value.plan
                 == PlanUpload(dev.uploadOffset, data, BlockSize(t, dev, ResolveFormat(t, dev).format), t.mips)
  {
    var n := ResolveFormat(t, dev);
    if t.desc.usage == Staging then InitializeStaging(t, n, dev, data)
    else InitializeImageResource(t, n, dev, data)
  }

  // ---------------------------------------------------------------------
  // Destruction
  // ---------------------------------------------------------------------

  datatype HandleKind = MemoryHandle | ImageHandle | BufferHandle | ViewHandleKind

  /** One call to `GraphicsDevice.Collect`. */
  datatype Collected = Collected(kind: HandleKind, handle: Handle)

  datatype Destroyed = Destroyed(native: NativeState, collected: seq<Collected>)

  /** `Collect(h)` if `h` is not Null. */
  function CollectIfSet(kind: HandleKind, h: Handle): (log: seq<Collected>)
    ensures |log| <= 1
    ensures log == [] <==> h == Null
  {
    if h == Null then [] else [Collected(kind, h)]
  }

  /** The six handles an owning texture hands to the collector, in order. */
  function OwnedHandles(n: NativeState): seq<Collected>
  {
    CollectIfSet(MemoryHandle, n.memory) + CollectIfSet(ImageHandle, n.image) + CollectIfSet(BufferHandle, n.buffer)
    + CollectIfSet(ViewHandleKind, n.imageView) + CollectIfSet(ViewHandleKind, n.colorAttachmentView)
    + CollectIfSet(ViewHandleKind, n.depthStencilView)
  }

  /** The release block of an owning texture: collect each set handle once, then null it. */
  function ReleaseOwned(n: NativeState): (r: Destroyed)
    ensures r.collected == OwnedHandles(n)
    ensures n.memory != Null ==> Collected(MemoryHandle, n.memory) in r.collected
    ensures n.image != Null ==> Collected(ImageHandle, n.image) in r.collected
    ensures n.buffer != Null ==> Collected(BufferHandle, n.buffer) in r.collected
    ensures forall h | h in [n.imageView, n.colorAttachmentView, n.depthStencilView] && h != Null ::
              Collected(ViewHandleKind, h) in r.collected
    ensures forall c | c in r.collected :: c.handle != Null
    ensures r.native.memory == Null && r.native.image == Null && r.native.buffer == Null
    ensures r.native.imageView == Null && r.native.colorAttachmentView == Null && r.native.depthStencilView == Null
    ensures r.native == n.(memory := Null, image := Null, buffer := Null, imageView := Null,
                           colorAttachmentView := Null, depthStencilView := Null)
  {
    OwnedHandlesMembers(n);
    Destroyed(
      n.(memory := Null, image := Null, buffer := Null, imageView := Null, colorAttachmentView := Null, depthStencilView := Null),
      OwnedHandles(n))
  }

  /** Each set handle is in the release log with its kind, and Null never is. */
  lemma OwnedHandlesMembers(n: NativeState)
    ensures n.memory != Null ==> Collected(MemoryHandle, n.memory) in OwnedHandles(n)
    ensures n.image != Null ==> Collected(ImageHandle, n.image) in OwnedHandles(n)
    ensures n.buffer != Null ==> Collected(BufferHandle, n.buffer) in OwnedHandles(n)
    ensures forall h | h in [n.imageView, n.colorAttachmentView, n.depthStencilView] && h != Null ::
              Collected(ViewHandleKind, h) in OwnedHandles(n)
    ensures forall c | c in OwnedHandles(n) :: c.handle != Null
  {
    var parts := [CollectIfSet(MemoryHandle, n.memory), CollectIfSet(ImageHandle, n.image),
                  CollectIfSet(BufferHandle, n.buffer), CollectIfSet(ViewHandleKind, n.imageView),
                  CollectIfSet(ViewHandleKind, n.colorAttachmentView), CollectIfSet(ViewHandleKind, n.depthStencilView)];
    var log := OwnedHandles(n);
    assert log == parts[0] + parts[1] + parts[2] + parts[3] + parts[4] + parts[5];
    forall k | 0 <= k < 6
      ensures forall c | c in parts[k] :: c in log
    {
    }
    forall c | c in log
      ensures c.handle != Null
    {
      assert exists k | 0 <= k < 6 :: c in parts[k];
    }
  }

  /** `OnDestroyed` as written: a view or non-owning texture forgets its image
      and memory; an owning one (views included) then collects every set
      handle. A staging view still holds its parent's buffer at that point. */
  function OnDestroyedAsWritten(t: Texture): (r: Destroyed)
    ensures r.native.image == Null && r.native.memory == Null
    ensures t.native.notOwning ==> r.collected == [] && r.native == t.native.(image := Null, memory := Null)
    ensures !t.native.notOwning ==>
              r.native == t.native.(memory := Null, image := Null, buffer := Null, imageView := Null,
                                    colorAttachmentView := Null, depthStencilView := Null)
    ensures t.parent.None? && !t.native.notOwning ==> r.collected == OwnedHandles(t.native)
    ensures t.parent.Some? && !t.native.notOwning ==> r.collected == OwnedHandles(t.native.(image := Null, memory := Null))
    ensures t.parent.Some? && !t.native.notOwning && t.native.buffer != Null ==>
              Collected(BufferHandle, t.native.buffer) in r.collected
    ensures forall c | c in r.collected :: c.handle != Null
  {
    var n := if t.parent.Some? || t.native.notOwning then t.native.(image := Null, memory := Null) else t.native;
    if !t.native.notOwning then ReleaseOwned(n) else Destroyed(n, [])
  }

  /** `OnDestroyed` with the shared buffer of a view forgotten as well, so a
      view never collects a handle its parent owns. */
  function OnDestroyed(t: Texture): (r: Destroyed)
    ensures t.native.notOwning ==>
              && r.collected == []
              && r.native == t.native.(image := Null, memory := Null, buffer := if t.parent.Some? then Null else t.native.buffer)
    ensures !t.native.notOwning ==>
              && r.native.memory == Null && r.native.image == Null && r.native.buffer == Null
              && r.native.imageView == Null && r.native.colorAttachmentView == Null && r.native.depthStencilView == Null
    ensures t.parent.Some? ==> forall c | c in r.collected :: c.kind == ViewHandleKind
    ensures t.parent.None? && !t.native.notOwning ==> r.collected == OwnedHandles(t.native)
    ensures |r.collected| <= 6
    ensures forall c | c in r.collected :: c.handle != Null
  {
    var n := if t.parent.Some? || t.native.notOwning then t.native.(image := Null, memory := Null) else t.native;
    var n' := if t.parent.Some? then n.(buffer := Null) else n;
    if !t.native.notOwning then ReleaseOwned(n') else Destroyed(n', [])
  }

  /** The C# destruction and the corrected one differ exactly for a view
      that still holds a buffer. */
  lemma OnDestroyedAsWrittenAgrees(t: Texture)
    ensures OnDestroyedAsWritten(t) == OnDestroyed(t) <==> (t.parent.None? || t.native.buffer == Null)
  {
    if t.parent.Some? && t.native.buffer != Null {
      if t.native.notOwning {
        assert OnDestroyedAsWritten(t).native.buffer != OnDestroyed(t).native.buffer;
      } else {
        var c := Collected(BufferHandle, t.native.buffer);
        assert c in OnDestroyedAsWritten(t).collected;
        assert c !in OnDestroyed(t).collected;
      }
    }
  }

  /** A staging view shares its parent's buffer: as written, destroying the
      view and then the parent hands the same buffer to the collector twice. */
  lemma StagingViewBufferCollectedTwice(dev: Device, owner: Texture, view: Texture)
    requires WellFormed(owner) && WellFormed(view)
    requires owner.desc.usage == Staging && owner.parent.None?
    requires owner.native.image == Null && !owner.native.notOwning
    requires InitializeFromImpl(owner, dev, []).Ok?
    requires view.desc.usage == Staging && !view.native.notOwning
    requires view.parent == Some(Parent(
               InitializeFromImpl(owner, dev, []).value.native.image,
               InitializeFromImpl(owner, dev, []).value.native.buffer,
               InitializeFromImpl(owner, dev, []).value.native.memory, true))
    ensures var ownerState := owner.(native := InitializeFromImpl(owner, dev, []).value.native);
            var buffer := ownerState.native.buffer;
            && buffer == Handle(dev.nextHandle)
            && (view.native.image == Null ==>
                 var viewState := view.(native := InitializeFromImpl(view, dev, []).value.native);
                 && Collected(BufferHandle, buffer) in OnDestroyedAsWritten(viewState).collected
                 && Collected(BufferHandle, buffer) in OnDestroyedAsWritten(ownerState).collected
                 && Collected(BufferHandle, buffer) !in OnDestroyed(viewState).collected)
  {
  }

  // ---------------------------------------------------------------------
  // Recreation and swap
  // ---------------------------------------------------------------------

  /** The guards of `OnRecreateImpl` let the texture through: it has no
      parent or an active one, and its usage or a role makes it dynamic. */
  predicate Recreatable(t: Texture)
  {
    && (t.parent.None? || t.parent.value.active)
    && !((t.desc.usage == Immutable || t.desc.usage == Default) && !t.desc.roles.renderTarget && !t.desc.roles.depthStencil)
  }

  /** `OnRecreateImpl`: views wait for an active parent; immutable and default
      textures that are neither render target nor depth-stencil are not
      recreated; everything else is initialized again without data. */
  function OnRecreateImpl(t: Texture, dev: Device): (r: Result<Texture>)
    requires WellFormed(t)
    ensures t.parent.Some? && !t.parent.value.active ==> r == Ok(t)
    ensures ((t.desc.usage == Immutable || t.desc.usage == Default)
             && !t.desc.roles.renderTarget && !t.desc.roles.depthStencil) ==> r == Ok(t)
    ensures r.Ok? && r.value != t ==>
              && r.value.desc == t.desc && r.value.parent == t.parent
              && (t.parent.None? || t.parent.value.active)
              && (t.desc.usage == Dynamic || t.desc.usage == Staging || t.desc.roles.renderTarget || t.desc.roles.depthStencil)
    ensures r.Ok? && r.value != t && t.desc.usage != Staging ==>
              && r.value.native.layout == SteadyLayout(t.desc.roles)
              && r.value.native.initialized == t.native.initialized
    ensures ((t.parent.None? || t.parent.value.active)
             && (t.desc.usage == Dynamic || t.desc.usage == Staging || t.desc.roles.renderTarget || t.desc.roles.depthStencil)
             && t.native.image != Null) ==> r == Err(InvalidOperation)
    ensures !Recreatable(t) ==> r == Ok(t)
    ensures Recreatable(t) ==> (r.Ok? <==> InitializeFromImpl(t, dev, []).Ok?)
    ensures Recreatable(t) && r.Ok? ==> r.value == t.(native := InitializeFromImpl(t, dev, []).value.native)
  {
    if t.parent.Some? && !t.parent.value.active then Ok(t)
    else if (t.desc.usage == Immutable || t.desc.usage == Default) && !t.desc.roles.renderTarget && !t.desc.roles.depthStencil then Ok(t)
    else
      match InitializeFromImpl(t, dev, [])
      case Err(e) => Err(e)
      case Ok(init) => Ok(t.(native := init.native))
  }

  /** Destroying an owning texture and recreating it initializes it afresh:
      a texture without a parent gets the device's next handle as its image
      (as its buffer when staging), a view takes its parent's again, and only a view shape the
      view factory rejects can make it fail. */
  lemma RecreateAfterDestroy(t: Texture, dev: Device)
    requires WellFormed(t) && !t.native.notOwning && Recreatable(t)
    ensures var r := OnRecreateImpl(t.(native := OnDestroyed(t).native), dev);
            && (t.desc.usage == Staging ==> r.Ok?)
            && (t.desc.usage != Staging ==>
                  (r.Err? <==> ((t.desc.roles.renderTarget && ColorAttachmentViewRejected(t.desc))
                                || (t.desc.roles.shaderResource && ImageViewRejected(t.desc)))))
            && (r.Ok? && t.parent.None? && t.desc.usage != Staging ==> r.value.native.image == Handle(dev.nextHandle))
            && (r.Ok? && t.parent.None? && t.desc.usage == Staging ==> r.value.native.buffer == Handle(dev.nextHandle))
            && (r.Ok? && t.parent.Some? && t.desc.usage != Staging ==> r.value.native.image == t.parent.value.image)
            && (r.Ok? && t.parent.Some? && t.desc.usage == Staging ==> r.value.native.buffer == t.parent.value.buffer)
  {
  }

  /** `SwapInternal`: the two textures exchange their whole native state and
      keep their descriptions and parents. */
  function SwapInternal(a: Texture, b: Texture): (r: (Texture, Texture))
    ensures r.0.native == b.native && r.1.native == a.native
    ensures r.0.desc == a.desc && r.0.mips == a.mips && r.0.viewBounds == a.viewBounds && r.0.parent == a.parent
    ensures r.1.desc == b.desc && r.1.mips == b.mips && r.1.viewBounds == b.viewBounds && r.1.parent == b.parent
  {
    (a.(native := b.native), b.(native := a.native))
  }

  /** Swapping twice restores both textures. */
  lemma SwapTwiceIsIdentity(a: Texture, b: Texture)
    ensures SwapInternal(SwapInternal(a, b).0, SwapInternal(a, b).1) == (a, b)
  {
  }
}

=== FILE: upload.dfy ===
/** Layout of initial data in the upload buffer (`InitializeImage`): the
    alignment mask, the total size requested, and one buffer-to-image copy
    per data box with its aligned offset and (array slice, mip) address. */
module UploadLayout {
  import opened TextureDescription
  import Arith

  /** Sum of a sequence of byte counts. */
  function Sum(xs: seq<nat>): nat
  {
    if |xs| == 0 then 0 else xs[0] + Sum(xs[1..])
  }

  /** Bytes reserved for slices that each may need up to `pad` alignment bytes. */
  function PaddedSum(xs: seq<nat>, pad: nat): nat
  {
    if |xs| == 0 then 0 else xs[0] + pad + PaddedSum(xs[1..], pad)
  }

  lemma {:induction false} PaddedSumIsTotal(xs: seq<nat>, pad: nat)
    ensures PaddedSum(xs, pad) == |xs| * pad + Sum(xs)
  {
    if |xs| > 0 {
      PaddedSumIsTotal(xs[1..], pad);
      assert |xs| * pad == (|xs| - 1) * pad + pad;
    }
  }

  /** `x & ~m` on non-negative 32-bit integers: the bits of `x` with every
      bit set in `m` cleared. */
  function AndNot(x: nat, m: nat): nat
  {
    if x == 0 then 0
    else (if m % 2 == 1 then 0 else x % 2) + 2 * AndNot(x / 2, m / 2)
  }

  /** Clearing bits never adds, and removes at most the bits of the mask. */
  lemma {:induction false} AndNotBounds(x: nat, m: nat)
    ensures AndNot(x, m) <= x
    ensures x - AndNot(x, m) <= m
  {
    if x != 0 {
      AndNotBounds(x / 2, m / 2);
    }
  }

  /** Clearing the low `k` bits rounds down to a multiple of `2^k`. */
  lemma {:induction false} AndNotLowBits(x: nat, k: nat)
    ensures AndNot(x, Arith.Pow2(k) - 1) == (x / Arith.Pow2(k)) * Arith.Pow2(k)
  {
    if x == 0 {
      Arith.DivModUnique(0, Arith.Pow2(k), 0, 0);
    } else if k == 0 {
      AndNotZero(x);
      assert Arith.Pow2(0) == 1;
    } else {
      AndNotLowBits(x / 2, k - 1);
      AndNotLowBitsStep(x, k);
    }
  }

  /** The inductive step of `AndNotLowBits`: one more low bit cleared. */
  lemma AndNotLowBitsStep(x: nat, k: nat)
    requires x > 0 && k > 0
    requires AndNot(x / 2, Arith.Pow2(k - 1) - 1) == ((x / 2) / Arith.Pow2(k - 1)) * Arith.Pow2(k - 1)
    ensures AndNot(x, Arith.Pow2(k) - 1) == (x / Arith.Pow2(k)) * Arith.Pow2(k)
  {
    var p := Arith.Pow2(k - 1);
    assert Arith.Pow2(k) == 2 * p;
    assert (2 * p - 1) / 2 == p - 1;
    AndNotOddMask(x, 2 * p - 1);
    Arith.DivDiv(x, 2, p);
    var q := x / (2 * p);
    assert AndNot(x, 2 * p - 1) == 2 * (q * p);
    DoubleProduct(q, p);
  }

  /** With the lowest mask bit set, the lowest bit of `x` is cleared. */
  lemma AndNotOddMask(x: nat, m: nat)
    requires x > 0 && m % 2 == 1
    ensures AndNot(x, m) == 2 * AndNot(x / 2, m / 2)
  {
  }

  lemma DoubleProduct(q: int, p: int)
    ensures 2 * (q * p) == q * (2 * p)
  {
  }

  lemma {:induction false} AndNotZero(x: nat)
    ensures AndNot(x, 0) == x
  {
    if x != 0 {
      AndNotZero(x / 2);
    }
  }

  /** The transfer alignment mask: `max(blockSize, 4) - 1`. */
  function AlignmentMask(blockSize: nat): (mask: nat)
    ensures mask + 1 >= 4 && mask + 1 >= blockSize
    ensures blockSize >= 4 ==> mask + 1 == blockSize
    ensures blockSize <= 4 ==> mask + 1 == 4
  {
    (if blockSize < 4 then 4 else blockSize) - 1
  }

  /** The upload offset as the C# code rounds it: `(offset + mask) & ~mask`. */
  function AlignAsWritten(offset: nat, mask: nat): (r: nat)
    ensures offset <= r <= offset + mask
  {
    AndNotBounds(offset + mask, mask);
    AndNot(offset + mask, mask)
  }

  /** `offset` rounded up to the next multiple of `alignment`. */
  function AlignUp(offset: nat, alignment: nat): (r: nat)
    requires alignment >= 1
    ensures r % alignment == 0
    ensures offset <= r < offset + alignment
  {
    var q := offset / alignment;
    assert offset == q * alignment + offset % alignment;
    if offset % alignment == 0 then offset
    else
      Arith.MultipleMod(q + 1, alignment);
      assert (q + 1) * alignment == q * alignment + alignment;
      (q + 1) * alignment
  }

  /** Rounding up is adding `alignment - 1` and rounding down. */
  lemma AlignUpByDivision(offset: nat, alignment: nat)
    requires alignment >= 1
    ensures AlignUp(offset, alignment) == ((offset + alignment - 1) / alignment) * alignment
  {
    var q := offset / alignment;
    var m := offset % alignment;
    assert offset == q * alignment + m;
    if m == 0 {
      Arith.DivModUnique(offset + alignment - 1, alignment, q, alignment - 1);
    } else {
      assert offset + alignment - 1 == (q + 1) * alignment + (m - 1);
      Arith.DivModUnique(offset + alignment - 1, alignment, q + 1, m - 1);
    }
  }

  /** When `mask + 1` is a power of two, the C# rounding and `AlignUp` agree. */
  lemma AlignAsWrittenAgreesForPowerOfTwo(offset: nat, mask: nat)
    requires Arith.IsPowerOfTwo(mask + 1)
    ensures AlignAsWritten(offset, mask) == AlignUp(offset, mask + 1)
  {
    var k: nat :| Arith.Pow2(k) == mask + 1;
    AndNotLowBits(offset + mask, k);
    AlignUpByDivision(offset, mask + 1);
  }

  /** With 12-byte pixels (mask 11) a slice following a 12-byte slice at
      offset 0 is placed at offset 20, which is not a multiple of 12. */
  lemma AlignAsWrittenMisalignsTwelveBytePixels()
    ensures AlignAsWritten(12, AlignmentMask(12)) == 20
    ensures AlignAsWritten(12, AlignmentMask(12)) % 12 != 0
    ensures AlignUp(12, AlignmentMask(12) + 1) == 12
  {
    ClearLowBitsOfTwentyThree();
    assert AlignmentMask(12) == 11;
    assert AlignUp(12, 12) == 12 by {
      assert 12 % 12 == 0;
    }
  }

  /** `23 & ~11` is 20: bits 0, 1 and 3 cleared from 10111b. */
  lemma ClearLowBitsOfTwentyThree()
    ensures AndNot(23, 11) == 20
  {
    assert AndNot(0, 0) == 0;
    assert AndNot(1, 0) == 1;
    assert AndNot(2, 1) == 2;
    assert AndNot(5, 2) == 5;
    assert AndNot(11, 5) == 10;
  }

  /** One `VkBufferImageCopy`: where the slice lies in the upload buffer,
      how many bytes it has, and the subresource and extent it fills. */
  datatype Copy = Copy(bufferOffset: nat, size: nat, arraySlice: nat, mipSlice: nat, extent: MipDesc)

  /** Copy of data box `i`: its size is the box's slice pitch, and it fills
      array slice `i / MipLevels` at mip `i % MipLevels` with that mip's extent. */
  predicate Addresses(c: Copy, i: nat, pitch: nat, mips: seq<MipDesc>)
    requires |mips| >= 1
  {
    && c.size == pitch
    && c.arraySlice == i / |mips|
    && c.mipSlice == i % |mips|
    && c.extent == mips[i % |mips|]
  }

  /** The copy for box `first` put in front of those for the boxes after it. */
  lemma AddressesCons(c: Copy, rest: seq<Copy>, first: nat, pitches: seq<nat>, alignment: nat, mips: seq<MipDesc>)
    requires |mips| >= 1 && alignment >= 1 && |pitches| == |rest| + 1
    requires Addresses(c, first, pitches[0], mips) && c.bufferOffset % alignment == 0
    requires forall k | 0 <= k < |rest| :: Addresses(rest[k], first + 1 + k, pitches[1..][k], mips)
    requires forall k | 0 <= k < |rest| :: rest[k].bufferOffset % alignment == 0
    ensures forall k | 0 <= k < |pitches| :: Addresses(([c] + rest)[k], first + k, pitches[k], mips)
    ensures forall k | 0 <= k < |pitches| :: ([c] + rest)[k].bufferOffset % alignment == 0
  {
    forall k | 1 <= k < |pitches|
      ensures Addresses(([c] + rest)[k], first + k, pitches[k], mips)
    {
      assert ([c] + rest)[k] == rest[k - 1];
      assert pitches[k] == pitches[1..][k - 1];
      assert first + k == first + 1 + (k - 1);
    }
  }

  /** Every copy lies within `[lo, hi)` and each ends before the next begins. */
  ghost predicate Placed(r: seq<Copy>, lo: nat, hi: nat)
  {
    && (forall k | 0 <= k < |r| :: lo <= r[k].bufferOffset && r[k].bufferOffset + r[k].size <= hi)
    && (forall i, j | 0 <= i < j < |r| :: r[i].bufferOffset + r[i].size <= r[j].bufferOffset)
  }

  /** A copy ending where the rest may start, put in front of it. */
  lemma PlacedCons(c: Copy, rest: seq<Copy>, lo: nat, mid: nat, hi': nat, hi: nat)
    requires Placed(rest, mid, hi') && hi' <= hi
    requires lo <= c.bufferOffset && c.bufferOffset + c.size <= mid && mid <= hi
    ensures Placed([c] + rest, lo, hi)
  {
    var r := [c] + rest;
    assert forall k | 1 <= k < |r| :: r[k] == rest[k - 1];
  }

  /** The copies for data boxes `first ..`, starting at upload offset
      `offset`; they lie in order, without overlapping, inside the range the
      padded sizes reserve. */
  function PlanCopies(offset: nat, pitches: seq<nat>, first: nat, alignment: nat, mips: seq<MipDesc>): (r: seq<Copy>)
    requires alignment >= 1 && |mips| >= 1
    ensures |r| == |pitches|
    ensures forall k | 0 <= k < |r| :: Addresses(r[k], first + k, pitches[k], mips)
    ensures forall k | 0 <= k < |r| :: r[k].bufferOffset % alignment == 0
    ensures Placed(r, offset, offset + PaddedSum(pitches, alignment - 1))
    decreases |pitches|
  {
    if |pitches| == 0 then []
    else
      var o := AlignUp(offset, alignment);
      var c := Copy(o, pitches[0], first / |mips|, first % |mips|, mips[first % |mips|]);
      var rest := PlanCopies(o + pitches[0], pitches[1..], first + 1, alignment, mips);
      var r := [c] + rest;
      AddressesCons(c, rest, first, pitches, alignment, mips);
      PlacedCons(c, rest, offset, o + pitches[0], o + pitches[0] + PaddedSum(pitches[1..], alignment - 1),
                 offset + PaddedSum(pitches, alignment - 1));
      r
  }

  /** The copies as the C# loop places them: each offset is rounded with
      `(offset + mask) & ~mask`. They address the same subresources and lie
      in the same padded range as `PlanCopies`, but need not be aligned. */
  function PlanCopiesAsWritten(offset: nat, pitches: seq<nat>, first: nat, mask: nat, mips: seq<MipDesc>): (r: seq<Copy>)
    requires |mips| >= 1
    ensures |r| == |pitches|
    ensures forall k | 0 <= k < |r| :: Addresses(r[k], first + k, pitches[k], mips)
    ensures Placed(r, offset, offset + PaddedSum(pitches, mask))
    decreases |pitches|
  {
    if |pitches| == 0 then []
    else
      var o := AlignAsWritten(offset, mask);
      var c := Copy(o, pitches[0], first / |mips|, first % |mips|, mips[first % |mips|]);
      var rest := PlanCopiesAsWritten(o + pitches[0], pitches[1..], first + 1, mask, mips);
      assert c.bufferOffset % 1 == 0;
      assert forall k | 0 <= k < |rest| :: rest[k].bufferOffset % 1 == 0;
      AddressesCons(c, rest, first, pitches, 1, mips);
      PlacedCons(c, rest, offset, o + pitches[0], o + pitches[0] + PaddedSum(pitches[1..], mask),
                 offset + PaddedSum(pitches, mask));
      [c] + rest
  }

  /** When `mask + 1` is a power of two the C# placement is the aligned one. */
  lemma {:induction false} PlanCopiesAgreeForPowerOfTwo(offset: nat, pitches: seq<nat>, first: nat, mask: nat, mips: seq<MipDesc>)
    requires |mips| >= 1 && Arith.IsPowerOfTwo(mask + 1)
    ensures PlanCopiesAsWritten(offset, pitches, first, mask, mips) == PlanCopies(offset, pitches, first, mask + 1, mips)
    decreases |pitches|
  {
    if |pitches| > 0 {
      AlignAsWrittenAgreesForPowerOfTwo(offset, mask);
      PlanCopiesAgreeForPowerOfTwo(AlignUp(offset, mask + 1) + pitches[0], pitches[1..], first + 1, mask, mips);
      PlanCopiesAgreeStep(offset, pitches, first, mask, mips);
    }
  }

  /** Both placements put the first copy at the same offset, and the rest agree. */
  lemma PlanCopiesAgreeStep(offset: nat, pitches: seq<nat>, first: nat, mask: nat, mips: seq<MipDesc>)
    requires |mips| >= 1 && |pitches| > 0
    requires AlignAsWritten(offset, mask) == AlignUp(offset, mask + 1)
    requires var next := AlignUp(offset, mask + 1) + pitches[0];
             PlanCopiesAsWritten(next, pitches[1..], first + 1, mask, mips) == PlanCopies(next, pitches[1..], first + 1, mask + 1, mips)
    ensures PlanCopiesAsWritten(offset, pitches, first, mask, mips) == PlanCopies(offset, pitches, first, mask + 1, mips)
  {
  }

  /** The upload of all initial data boxes, as requested from the upload allocator. */
  datatype UploadPlan = UploadPlan(start: nat, totalSize: nat, alignmentMask: nat, copies: seq<Copy>)

  /** Upload layout for data boxes of the given slice pitches: the total
      size reserves `mask` padding bytes per box; copy `i` addresses array
      slice `i / MipLevels` and mip `i % MipLevels`. */
  function PlanUpload(start: nat, pitches: seq<nat>, blockSize: nat, mips: seq<MipDesc>): (p: UploadPlan)
    requires |mips| >= 1
    ensures p.start == start
    ensures p.alignmentMask == AlignmentMask(blockSize)
    ensures p.totalSize == |pitches| * p.alignmentMask + Sum(pitches)
    ensures |p.copies| == |pitches|
    ensures forall i | 0 <= i < |p.copies| :: Addresses(p.copies[i], i, pitches[i], mips)
    ensures forall i | 0 <= i < |p.copies| :: p.copies[i].bufferOffset % (p.alignmentMask + 1) == 0
    ensures Placed(p.copies, start, start + p.totalSize)
    ensures p.copies == PlanCopies(start, pitches, 0, p.alignmentMask + 1, mips)
  {
    var mask := AlignmentMask(blockSize);
    PaddedSumIsTotal(pitches, mask);
    UploadPlan(start, |pitches| * mask + Sum(pitches), mask, PlanCopies(start, pitches, 0, mask + 1, mips))
  }

  /** The upload layout as the C# code computes it: the same total size and
      subresource addresses as `PlanUpload`, with the copies placed by the
      `& ~mask` rounding; they still lie inside the requested range without
      overlapping. */
  function PlanUploadAsWritten(start: nat, pitches: seq<nat>, blockSize: nat, mips: seq<MipDesc>): (p: UploadPlan)
    requires |mips| >= 1
    ensures p.start == start
    ensures p.alignmentMask == AlignmentMask(blockSize)
    ensures p.totalSize == |pitches| * p.alignmentMask + Sum(pitches)
    ensures |p.copies| == |pitches|
    ensures forall i | 0 <= i < |p.copies| :: Addresses(p.copies[i], i, pitches[i], mips)
    ensures Placed(p.copies, start, start + p.totalSize)
    ensures p.copies == PlanCopiesAsWritten(start, pitches, 0, p.alignmentMask, mips)
  {
    var mask := AlignmentMask(blockSize);
    PaddedSumIsTotal(pitches, mask);
    UploadPlan(start, |pitches| * mask + Sum(pitches), mask, PlanCopiesAsWritten(start, pitches, 0, mask, mips))
  }

  /** When the rounding unit `max(blockSize, 4)` is a power of two, the C#
      layout is the corrected one. */
  lemma PlanUploadAgreesForPowerOfTwo(start: nat, pitches: seq<nat>, blockSize: nat, mips: seq<MipDesc>)
    requires |mips| >= 1 && Arith.IsPowerOfTwo(AlignmentMask(blockSize) + 1)
    ensures PlanUploadAsWritten(start, pitches, blockSize, mips) == PlanUpload(start, pitches, blockSize, mips)
  {
    var mask := AlignmentMask(blockSize);
    assert PlanCopiesAsWritten(start, pitches, 0, mask, mips) == PlanCopies(start, pitches, 0, mask + 1, mips) by {
      PlanCopiesAgreeForPowerOfTwo(start, pitches, 0, mask, mips);
    }
    SameCopiesSamePlan(start, pitches, blockSize, mips);
  }

  /** The two layouts differ in nothing but the placement of the copies. */
  lemma SameCopiesSamePlan(start: nat, pitches: seq<nat>, blockSize: nat, mips: seq<MipDesc>)
    requires |mips| >= 1
    requires PlanCopiesAsWritten(start, pitches, 0, AlignmentMask(blockSize), mips)
             == PlanCopies(start, pitches, 0, AlignmentMask(blockSize) + 1, mips)
    ensures PlanUploadAsWritten(start, pitches, blockSize, mips) == PlanUpload(start, pitches, blockSize, mips)
  {
  }

  /** Two 12-byte boxes at upload offset 0: the C# layout puts the second
      copy at 20, which is not a multiple of 12; the corrected one at 12. */
  lemma PlanUploadMisalignsTwelveBytePixels(mips: seq<MipDesc>)
    requires |mips| >= 1
    ensures PlanUploadAsWritten(0, [12, 12], 12, mips).copies[0].bufferOffset == 0
    ensures PlanUploadAsWritten(0, [12, 12], 12, mips).copies[1].bufferOffset == 20
    ensures PlanUpload(0, [12, 12], 12, mips).copies[1].bufferOffset == 12
  {
    var mask := AlignmentMask(12);
    assert mask == 11;
    assert AndNot(11, 11) == 0 by {
      assert AndNot(0, 0) == 0;
      assert AndNot(1, 1) == 0;
      assert AndNot(2, 2) == 0;
      assert AndNot(5, 5) == 0;
    }
    assert AlignAsWritten(0, mask) == 0;
    AlignAsWrittenMisalignsTwelveBytePixels();
    var asWritten := PlanCopiesAsWritten(0, [12, 12], 0, mask, mips);
    assert [12, 12][1..] == [12];
    assert asWritten[1] == PlanCopiesAsWritten(12, [12], 1, mask, mips)[0];
    assert AlignUp(0, 12) == 0;
    var corrected := PlanCopies(0, [12, 12], 0, 12, mips);
    assert corrected[1] == PlanCopies(12, [12], 1, 12, mips)[0];
  }

  /** Non-empty slices get strictly increasing offsets. */
  lemma PlanOffsetsIncrease(start: nat, pitches: seq<nat>, blockSize: nat, mips: seq<MipDesc>, i: nat, j: nat)
    requires |mips| >= 1
    requires i < j < |pitches| && pitches[i] > 0
    ensures PlanUpload(start, pitches, blockSize, mips).copies[i].bufferOffset
            < PlanUpload(start, pitches, blockSize, mips).copies[j].bufferOffset
  {
  }

  /** For a 16-byte block (a block-compressed format) the mask is 15. */
  lemma CompressedBlockMask()
    ensures AlignmentMask(16) == 15 && AlignmentMask(8) == 7 && AlignmentMask(1) == 3
  {
  }
}

=== FILE: views.dfy ===
/** The view factory: the shader-resource view (`GetImageView`), the colour
    attachment view (`GetColorAttachmentView`) and the depth-stencil view
    (`GetDepthStencilView`). Each yields the parameters of the native view
    it would create, `NoView` for the null handle, or the exception. */
module Views {
  import opened Results
  import opened Formats
  import opened VulkanFlags
  import opened TextureDescription

  datatype ViewKind = Image1D | Image2D | Image3D | ImageCube | Image1DArray | Image2DArray | ImageCubeArray

  /** A `VkImageViewCreateInfo` without the image handle. */
  datatype ViewInfo = ViewInfo(
    kind: ViewKind,
    format: VkFormat,
    aspect: set<Aspect>,
    baseMip: nat,
    mipCount: nat,
    baseLayer: nat,
    layerCount: nat)

  datatype ViewRequest = NoView | Create(info: ViewInfo)

  /** The shape combinations `GetImageView` rejects for a shader resource. */
  predicate ImageViewRejected(d: Description)
  {
    || d.viewType == MipBand
    || d.multisample
    || (d.arraySize > 1 && d.dimension == Texture3D)
    || (d.dimension == TextureCube && (d.arraySize <= 1 || d.arraySize % 6 != 0))
  }

  /** `GetImageView`: the shader-resource view of a texture. */
  function ImageView(d: Description, format: VkFormat, b: SliceBounds): (r: Result<ViewRequest>)
    ensures !d.roles.shaderResource ==> r == Ok(NoView)
    ensures d.roles.shaderResource ==> (r.Err? <==> ImageViewRejected(d))
    ensures d.roles.shaderResource && d.viewType == MipBand ==> r == Err(NotSupported)
    ensures d.roles.shaderResource && d.viewType != MipBand && d.multisample ==> r == Err(NotImplemented)
    ensures r.Ok? && r.value.Create? ==>
              var v := r.value.info;
              && d.roles.shaderResource
              && v.format == format
              && v.aspect == (if d.roles.depthStencil then {Depth} else {Color})
              && v.baseMip == b.mipIndex && v.mipCount == b.mipCount
              && v.baseLayer == b.arrayOrDepthSlice
              && v.layerCount == (if d.dimension == Texture3D then 1 else b.arrayOrDepthCount)
              && (d.dimension == Texture1D ==> v.kind == (if d.arraySize > 1 then Image1DArray else Image1D))
              && (d.dimension == Texture2D ==> v.kind == (if d.arraySize > 1 then Image2DArray else Image2D))
              && (d.dimension == Texture3D ==> v.kind == Image3D && d.arraySize <= 1)
              && (d.dimension == TextureCube ==> v.kind == (if d.arraySize > 6 then ImageCubeArray else ImageCube))
  {
    if !d.roles.shaderResource then Ok(NoView)
    else if d.viewType == MipBand then Err(NotSupported)
    else
      var layerCount := if d.dimension == Texture3D then 1 else b.arrayOrDepthCount;
      var aspect := if d.roles.depthStencil then {Depth} else {Color};
      var make := (k: ViewKind) => Ok(Create(ViewInfo(k, format, aspect, b.mipIndex, b.mipCount, b.arrayOrDepthSlice, layerCount)));
      if d.multisample then Err(NotImplemented)
      else if d.arraySize > 1 then
        if d.multisample && d.dimension != Texture2D then Err(NotSupported)
        else if d.dimension == Texture3D then Err(NotSupported)
        else match d.dimension
          case Texture1D => make(Image1DArray)
          case Texture2D => make(Image2DArray)
          case TextureCube =>
            if d.arraySize % 6 != 0 then Err(NotSupported)
            else make(if d.arraySize > 6 then ImageCubeArray else ImageCube)
      else
        if d.multisample && d.dimension != Texture2D then Err(NotSupported)
        else if d.dimension == TextureCube then Err(NotSupported)
        else match d.dimension
          case Texture1D => make(Image1D)
          case Texture2D => make(Image2D)
          case Texture3D => make(Image3D)
  }

  /** The shape combinations `GetColorAttachmentView` rejects for a render target. */
  predicate ColorAttachmentViewRejected(d: Description)
  {
    || d.viewType == MipBand
    || d.multisample
    || (d.arraySize > 1 && d.dimension == Texture3D)
    || (d.arraySize <= 1 && d.dimension == TextureCube)
  }

  /** `GetColorAttachmentView`: a single-layer 2D colour view of a render target. */
  function ColorAttachmentView(d: Description, format: VkFormat, b: SliceBounds): (r: Result<ViewRequest>)
    ensures !d.roles.renderTarget ==> r == Ok(NoView)
    ensures d.roles.renderTarget ==> (r.Err? <==> ColorAttachmentViewRejected(d))
    ensures d.roles.renderTarget && d.viewType == MipBand ==> r == Err(NotSupported)
    ensures d.roles.renderTarget && d.viewType != MipBand && d.multisample ==> r == Err(NotImplemented)
    ensures r.Ok? && r.value.Create? ==>
              r.value.info == ViewInfo(Image2D, format, {Color}, b.mipIndex, b.mipCount, b.arrayOrDepthSlice, 1)
  {
    if !d.roles.renderTarget then Ok(NoView)
    else if d.viewType == MipBand then Err(NotSupported)
    else if d.multisample then Err(NotImplemented)
    else if d.arraySize > 1 then
      if d.multisample && d.dimension != Texture2D then Err(NotSupported)
      else if d.dimension == Texture3D then Err(NotSupported)
      else Ok(Create(ViewInfo(Image2D, format, {Color}, b.mipIndex, b.mipCount, b.arrayOrDepthSlice, 1)))
    else
      if d.multisample && d.dimension != Texture2D then Err(NotSupported)
      else if d.dimension == TextureCube then Err(NotSupported)
      else Ok(Create(ViewInfo(Image2D, format, {Color}, b.mipIndex, b.mipCount, b.arrayOrDepthSlice, 1)))
  }

  /** `GetDepthStencilView`: the first mip and layer of a depth-stencil
      texture, with the texture's full aspect; it never fails. */
  function DepthStencilView(d: Description, format: VkFormat, aspect: set<Aspect>): (r: ViewRequest)
    ensures r.NoView? <==> !d.roles.depthStencil
    ensures r.Create? ==> r.info == ViewInfo(Image2D, format, aspect, 0, 1, 0, 1)
  {
    if !d.roles.depthStencil then NoView
    else Create(ViewInfo(Image2D, format, aspect, 0, 1, 0, 1))
  }

  /** A cube of exactly six faces gets a single-cube view; twelve faces a cube array. */
  lemma CubeViewBoundary(d: Description, format: VkFormat, b: SliceBounds)
    requires d.roles.shaderResource && !d.multisample && d.viewType != MipBand
    requires d.dimension == TextureCube
    ensures d.arraySize == 6 ==> ImageView(d, format, b).Ok? && ImageView(d, format, b).value.info.kind == ImageCube
    ensures d.arraySize == 12 ==> ImageView(d, format, b).Ok? && ImageView(d, format, b).value.info.kind == ImageCubeArray
    ensures d.arraySize == 1 || d.arraySize == 8 ==> ImageView(d, format, b).Err?
  {
  }
}

=== FILE: vulkan_flags.dfy ===
/** Native Vulkan vocabulary used by the texture policy: opaque handles,
    image layouts, access and pipeline-stage flag sets, aspects, and the
    steady-state triple a texture rests in, derived from its role flags.
    A Vulkan bit mask is modelled as a set of flags; `|` is set union. */
module VulkanFlags {
  import opened Formats

  /** An opaque native handle (`VkImage`, `VkBuffer`, `VkImageView`, `VkDeviceMemory`). */
  datatype Handle = Null | Handle(id: nat)

  datatype Layout =
    | Undefined
    | ColorAttachmentOptimal
    | DepthStencilAttachmentOptimal
    | ShaderReadOnlyOptimal
    | TransferDstOptimal

  datatype Access =
    | HostRead
    | HostWrite
    | TransferRead
    | TransferWrite
    | ColorAttachmentWrite
    | DepthStencilAttachmentWrite
    | ShaderRead
    | InputAttachmentRead

  datatype Stage =
    | Host
    | Transfer
    | ColorAttachmentOutput
    | EarlyFragmentTests
    | LateFragmentTests
    | VertexInput
    | FragmentShader
    | AllCommands

  datatype Aspect = Color | Depth | Stencil

  /** The texture's role flags (`TextureFlags`). */
  datatype Roles = Roles(shaderResource: bool, renderTarget: bool, depthStencil: bool, unorderedAccess: bool)

  /** The steady-state layout: render target first, then depth-stencil,
      then shader resource, otherwise a transfer destination. */
  function SteadyLayout(r: Roles): (l: Layout)
    ensures l == ColorAttachmentOptimal <==> r.renderTarget
    ensures l == DepthStencilAttachmentOptimal <==> !r.renderTarget && r.depthStencil
    ensures l == ShaderReadOnlyOptimal <==> !r.renderTarget && !r.depthStencil && r.shaderResource
    ensures l == TransferDstOptimal <==> !r.renderTarget && !r.depthStencil && !r.shaderResource
    ensures l != Undefined
  {
    if r.renderTarget then ColorAttachmentOptimal
    else if r.depthStencil then DepthStencilAttachmentOptimal
    else if r.shaderResource then ShaderReadOnlyOptimal
    else TransferDstOptimal
  }

  /** The access mask that goes with a steady-state layout. A transfer
      destination rests with *read* access, as the C# code assigns it. */
  function AccessForLayout(l: Layout): set<Access>
  {
    match l
    case TransferDstOptimal => {TransferRead}
    case ColorAttachmentOptimal => {ColorAttachmentWrite}
    case DepthStencilAttachmentOptimal => {DepthStencilAttachmentWrite}
    case ShaderReadOnlyOptimal => {ShaderRead, InputAttachmentRead}
    case Undefined => {}
  }

  /** The steady-state access mask of a non-staging texture. */
  function SteadyAccess(r: Roles): (a: set<Access>)
    ensures a == AccessForLayout(SteadyLayout(r))
    ensures ColorAttachmentWrite in a <==> r.renderTarget
    ensures DepthStencilAttachmentWrite in a <==> !r.renderTarget && r.depthStencil
    ensures ShaderRead in a <==> !r.renderTarget && !r.depthStencil && r.shaderResource
    ensures TransferRead in a <==> !r.renderTarget && !r.depthStencil && !r.shaderResource
    ensures TransferWrite !in a && HostRead !in a && HostWrite !in a
    ensures |a| >= 1
  {
    AccessForLayout(SteadyLayout(r))
  }

  /** The steady-state pipeline-stage mask, chosen with the same priority as
      the layout; a texture with no role rests with no stage at all. */
  function SteadyStages(r: Roles): (s: set<Stage>)
    ensures ColorAttachmentOutput in s <==> r.renderTarget || r.depthStencil
    ensures EarlyFragmentTests in s <==> !r.renderTarget && r.depthStencil
    ensures LateFragmentTests in s <==> !r.renderTarget && r.depthStencil
    ensures VertexInput in s <==> !r.renderTarget && !r.depthStencil && r.shaderResource
    ensures FragmentShader in s <==> !r.renderTarget && !r.depthStencil && r.shaderResource
    ensures s == {} <==> !r.renderTarget && !r.depthStencil && !r.shaderResource
    ensures Host !in s && Transfer !in s && AllCommands !in s
  {
    if r.renderTarget then {ColorAttachmentOutput}
    else if r.depthStencil then {ColorAttachmentOutput, EarlyFragmentTests, LateFragmentTests}
    else if r.shaderResource then {VertexInput, FragmentShader}
    else {}
  }

  /** The image aspect: Depth for a depth-stencil texture, Color otherwise,
      plus Stencil exactly when the view format carries a stencil. */
  function ImageAspect(isDepthStencil: bool, viewFormat: PixelFormat): (a: set<Aspect>)
    ensures Depth in a <==> isDepthStencil
    ensures Color in a <==> !isDepthStencil
    ensures Stencil in a <==> viewFormat in {R24G8_Typeless, D24_UNorm_S8_UInt, R32G8X24_Typeless, D32_Float_S8X24_UInt}
  {
    var base := if isDepthStencil then {Depth} else {Color};
    if IsStencilFormat(viewFormat) then base + {Stencil} else base
  }
}

=== FILE: z_order.dfy ===
/** Z-index ordering of panel children (`PanelChildrenComparer` and the
    sort of the visual children). Elements are numbered; `None` is C# null. */
module ZOrder {
  import opened Results
  import Arith

  type Element = int

  const Int32Min: int := -0x8000_0000
  const Int32Max: int := 0x7FFF_FFFF

  type Int32 = x: int | Int32Min <= x <= Int32Max

  /** The attached `ZIndex` property of an element; 0 when never set. */
  function ZIndex(z: map<Element, Int32>, e: Element): Int32
  {
    if e in z then z[e] else 0
  }

  /** Unchecked 32-bit wrap-around of an integer. */
  function Wrap32(x: int): (r: Int32)
    ensures (r - x) % Arith.TwoTo32 == 0
    ensures Int32Min <= x <= Int32Max ==> r == x
  {
    (x - Int32Min) % Arith.TwoTo32 + Int32Min
  }

  /** `PanelChildrenComparer.Compare` as written: the Z-index difference,
      computed in unchecked 32-bit arithmetic. */
  function CompareAsWritten(z: map<Element, Int32>, x: Option<Element>, y: Option<Element>): (r: Int32)
    ensures x == y ==> r == 0
    ensures x.None? && y.Some? ==> r == 1
    ensures x.Some? && y.None? ==> r == -1
    ensures x.Some? && y.Some? && x != y ==> (r - (ZIndex(z, x.value) - ZIndex(z, y.value))) % Arith.TwoTo32 == 0
  {
    if x == y then 0
    else if x.None? then 1
    else if y.None? then -1
    else Wrap32(ZIndex(z, x.value) - ZIndex(z, y.value))
  }

  /** The comparer as intended: the same element compares equal, null sorts
      after every element, and elements order by increasing Z-index. */
  function Compare(z: map<Element, Int32>, x: Option<Element>, y: Option<Element>): (r: int)
    ensures -1 <= r <= 1
    ensures x == y ==> r == 0
    ensures x.None? && y.Some? ==> r == 1
    ensures x.Some? && y.None? ==> r == -1
    ensures x.Some? && y.Some? ==>
              && (r < 0 <==> ZIndex(z, x.value) < ZIndex(z, y.value))
              && (r > 0 <==> ZIndex(z, x.value) > ZIndex(z, y.value))
  {
    if x == y then 0
    else if x.None? then 1
    else if y.None? then -1
    else if ZIndex(z, x.value) < ZIndex(z, y.value) then -1
    else if ZIndex(z, x.value) > ZIndex(z, y.value) then 1
    else 0
  }

  /** The intended comparer is antisymmetric and transitive, as `List.Sort` needs. */
  lemma CompareIsConsistent(z: map<Element, Int32>, x: Option<Element>, y: Option<Element>, w: Option<Element>)
    ensures Compare(z, x, y) == -Compare(z, y, x)
    ensures Compare(z, x, y) <= 0 && Compare(z, y, w) <= 0 ==> Compare(z, x, w) <= 0
  {
  }

  /** Without overflow the written comparer has the intended sign. */
  lemma CompareAsWrittenAgreesWithoutOverflow(z: map<Element, Int32>, x: Option<Element>, y: Option<Element>)
    requires x.Some? && y.Some? ==> Int32Min <= ZIndex(z, x.value) - ZIndex(z, y.value) <= Int32Max
    ensures CompareAsWritten(z, x, y) < 0 <==> Compare(z, x, y) < 0
    ensures CompareAsWritten(z, x, y) > 0 <==> Compare(z, x, y) > 0
  {
  }

  /** Z-indices `Int32Max` and `-1`: the difference wraps to a negative
      value, so the written comparer puts the higher element first. */
  lemma CompareAsWrittenOverflows()
    ensures var z := map[1 := Int32Max as Int32, 2 := -1 as Int32];
            CompareAsWritten(z, Some(1), Some(2)) == Int32Min && Compare(z, Some(1), Some(2)) == 1
  {
  }

  /** Increasing Z-index order. */
  predicate SortedByZ(z: map<Element, Int32>, xs: seq<Element>)
  {
    forall i, j | 0 <= i < j < |xs| :: ZIndex(z, xs[i]) <= ZIndex(z, xs[j])
  }

  /** Sorted by Z-index is the same as sorted under the intended comparer. */
  lemma SortedByZIsSortedByComparer(z: map<Element, Int32>, xs: seq<Element>)
    ensures SortedByZ(z, xs) <==> forall i, j | 0 <= i < j < |xs| :: Compare(z, Some(xs[i]), Some(xs[j])) <= 0
  {
  }

  /** Every element has a Z-index of at least `lb`. */
  predicate AllAtLeast(z: map<Element, Int32>, xs: seq<Element>, lb: int)
  {
    forall i | 0 <= i < |xs| :: lb <= ZIndex(z, xs[i])
  }

  /** An element no larger than the rest, in front of a sorted list. */
  lemma SortedCons(z: map<Element, Int32>, h: Element, rest: seq<Element>)
    requires SortedByZ(z, rest) && AllAtLeast(z, rest, ZIndex(z, h))
    ensures SortedByZ(z, [h] + rest)
    ensures forall lb | lb <= ZIndex(z, h) && AllAtLeast(z, rest, lb) :: AllAtLeast(z, [h] + rest, lb)
  {
    assert forall i | 1 <= i < |[h] + rest| :: ([h] + rest)[i] == rest[i - 1];
  }

  /** Inserts `e` after every element whose Z-index is not larger. */
  function InsertByZ(z: map<Element, Int32>, xs: seq<Element>, e: Element): (r: seq<Element>)
    ensures |r| == |xs| + 1
  {
    if |xs| == 0 then [e]
    else if ZIndex(z, e) < ZIndex(z, xs[0]) then [e] + xs
    else [xs[0]] + InsertByZ(z, xs[1..], e)
  }

  /** Insertion adds exactly the one element. */
  lemma {:induction false} InsertByZPermutes(z: map<Element, Int32>, xs: seq<Element>, e: Element)
    ensures multiset(InsertByZ(z, xs, e)) == multiset(xs) + multiset{e}
  {
    if |xs| > 0 {
      assert xs == [xs[0]] + xs[1..];
      if ZIndex(z, e) >= ZIndex(z, xs[0]) {
        InsertByZPermutes(z, xs[1..], e);
      }
    }
  }

  /** Insertion keeps a sorted sequence sorted and keeps every lower bound
      that the inserted element also meets. */
  lemma {:induction false} InsertByZKeepsOrder(z: map<Element, Int32>, xs: seq<Element>, e: Element)
    requires SortedByZ(z, xs)
    ensures SortedByZ(z, InsertByZ(z, xs, e))
    ensures forall lb | AllAtLeast(z, xs, lb) && lb <= ZIndex(z, e) :: AllAtLeast(z, InsertByZ(z, xs, e), lb)
  {
    if |xs| > 0 {
      var tail := xs[1..];
      assert xs == [xs[0]] + tail;
      assert AllAtLeast(z, tail, ZIndex(z, xs[0]));
      if ZIndex(z, e) < ZIndex(z, xs[0]) {
        SortedCons(z, e, xs);
      } else {
        InsertByZKeepsOrder(z, tail, e);
        SortedCons(z, xs[0], InsertByZ(z, tail, e));
      }
    }
  }

  /** The visual children after `Sort(PanelChildrenSorter)`, in increasing
      Z-index order. */
  function SortByZ(z: map<Element, Int32>, xs: seq<Element>): (r: seq<Element>)
    ensures |r| == |xs|
  {
    if |xs| == 0 then []
    else InsertByZ(z, SortByZ(z, xs[..|xs| - 1]), xs[|xs| - 1])
  }

  /** Sorting yields the same elements, neither losing nor adding one, in
      increasing Z-index order. */
  lemma {:induction false} SortByZSorts(z: map<Element, Int32>, xs: seq<Element>)
    ensures SortedByZ(z, SortByZ(z, xs))
    ensures multiset(SortByZ(z, xs)) == multiset(xs)
  {
    if |xs| > 0 {
      var last := |xs| - 1;
      assert xs == xs[..last] + [xs[last]];
      SortByZSorts(z, xs[..last]);
      InsertByZKeepsOrder(z, SortByZ(z, xs[..last]), xs[last]);
      InsertByZPermutes(z, SortByZ(z, xs[..last]), xs[last]);
    }
  }
}
